=== FILE: README.md ===
# Zip Sim, modelled in Dafny

A model of the simulation engine of the "8-bit" Zip Sim (`zip_sim/zip_sim.py`).
A delivery vehicle flies forward through a 2000 m × 50 m world that wraps on both
axes. It steers only laterally and drifts with the wind. It must avoid trees and drop
one package into each of ten delivery sites before it reaches the recovery line.

An external pilot process flies the vehicle. On every tick, at 60 Hz:

1. The simulator sends the pilot a 44-byte telemetry frame. It holds a timestamp, the
   two recovery errors, the wind and 31 lidar ranges.
2. The simulator reads back an 8-byte command: the lateral airspeed and a drop flag.
3. It moves the vehicle and checks it against the trees.
4. It advances the falling packages.
5. It releases a package on the rising edge of the drop flag.
6. It lets the wind drift.
7. It ends the run past the recovery line.

After the run it counts the deliveries and the "violations" (redundant drops into a
site that was already served).

The model is split into these modules:

- `Numbers` (`numbers.dfy`): `Clamp`, and Python's `round` on exact reals
  (round half to even).
- `Geometry` (`geometry.dfy`):
  - Python's floored `%` (`Wrap`).
  - Normalised positions and moves (`Entity`).
  - The wrapped distance.
  - `Circle.contains`.
- `Entities` (`entities.dfy`):
  - The constants.
  - The vehicle's velocity and step.
  - The trees' and sites' circles.
  - `Package`, a class updated in place.
  - `Wind`, a class whose speed is updated in place.
- `Lidar` (`lidar.dfy`):
  - `cast_lidar`'s candidate list.
  - `cast_lidar_ray`, as a loop (`CastRay`) proved against a specification
    (`RayReading`).
  - The fan of 31 rays (`CastLidar`).
- `Protocol` (`protocol.dfy`): the telemetry and command frames, byte by byte, with
  their round trips.
- `Scoring` (`scoring.dfy`):
  - `package_count_by_site` as a loop (`CountPackagesBySite`) proved against
    `SiteCounts`.
  - The deliveries and violations, with their properties.
- `Simulation` (`simulation.dfy`): the main loop as a `SimulationState` class.
  - Its fields are those the loop updates: `loop_count`, the vehicle position,
    `lateral_airspeed`, `was_package_dropped`, `num_packages`, `dropped_packages`
    and `result`.
  - `Tick` is one pass of the loop, `Run` is the loop, and `Score` is the
    end-of-run count.
- `WorldGeneration` (`worldgen.dfy`): the rejection sampling of sites and trees,
  with the random draws as inputs.

Inputs the model does not compute are parameters:

- the random draws (wind steps, world generation);
- the wind's heading for each tick, `(cos θ, sin θ)` in the source. It may be any
  vector, since no proof needs it to have unit length;
- the rays, `(sin angle, −cos angle)` for each of the 31 lidar angles;
- the square root;
- the f32 encoding and decoding of the frames' float fields;
- each tick's reply read from the pilot.

The square root is only assumed to be non-negative on non-negative arguments.
Distances are compared through their squares, so the collision, containment and
world-generation tests need no root.

Where the code differs from its own descriptions, the model follows the code:

- **Lateral offset of a lidar candidate.** It lies in `[−25, 25)`, because the code
  uses `(dy + 25) % 50 − 25`.
- **Lidar blinding.** Only an obstacle strictly ahead of the vehicle (centre
  `x` greater than the vehicle's) reaches the blind test. An obstacle that
  contains the sensor but whose centre is level with or behind the vehicle is
  filtered out first, so it does not blind the lidar. `AllRaysZero` states the
  blind case for the filtered candidates.
- **Crash test.** A crash is a tree's 2 m collision circle containing the vehicle's
  centre. The vehicle's own 1.6 m radius plays no part.
- **Recovery check.** It runs after the crash check in the same tick and overrides it.
- **Short reply.** A short reply from the pilot ends the tick as `Crashed` before
  anything moves.
- **Recovery band.** It is `y ≤ 7.5 or y ≥ 42.5`. This is the band within 7.5 m of the
  line `y = 0` (where the vehicle starts), measured across the seam. It is proved as
  `RecoveredNearCentreline`.
- **Telemetry field order.** The comment above the struct lists the fields in a
  different order. The struct format `>Hhffb31B` and the `pack` call agree with
  each other, and the model follows them.

## Model

| member | source | states |
|---|---|---|
| Numbers.Clamp | zip_sim/zip_sim.py:409 | `max(lo, min(hi, x))` lies in `[lo, hi]`, is `x` when `x` is in range, and is the bound it crossed otherwise |
| Numbers.Round | zip_sim/zip_sim.py:397-400 | Python's `round`: the result is within 0.5 of the argument, and even on a tie |
| Numbers.RoundWithin | zip_sim/zip_sim.py:397-400 | rounding a value between two integers stays between them |
| Numbers.RoundAgainstInt | zip_sim/zip_sim.py:297-298 | rounding never crosses an integer: a value below `n` rounds to at most `n`, one at or above `n` to at least `n` |
| Geometry.Wrap | zip_sim/zip_sim.py:111 | `x % extent` lies in `[0, extent)` |
| Geometry.WrapUnique | zip_sim/zip_sim.py:111 | `x % e` is the only value in `[0, e)` that differs from `x` by a whole number of periods |
| Geometry.WrapInRange | zip_sim/zip_sim.py:111 | a value already in `[0, e)` is unchanged by `% e` |
| Geometry.WrapAdd | zip_sim/zip_sim.py:113-115 | wrapping, adding and wrapping again equals adding and wrapping once |
| Geometry.Normalize | zip_sim/zip_sim.py:109-111 | `Entity.__init__` puts every position inside the world |
| Geometry.NormalizeInWorld | zip_sim/zip_sim.py:109-111 | a position already in the world is left unchanged by normalising it |
| Geometry.Move | zip_sim/zip_sim.py:113-115 | `Entity.move` keeps the position inside the world |
| Geometry.MoveCompose | zip_sim/zip_sim.py:113-115 | two moves land where one move by the summed displacement lands |
| Geometry.MoveByZero | zip_sim/zip_sim.py:113-115 | a zero move leaves a position in the world where it is |
| Geometry.WrappedDelta | zip_sim/zip_sim.py:117-122 | one axis of `distance_to`: the gap between two coordinates taken the short way round; `WrappedDeltaSymmetric` and `WrappedDeltaBounded` prove it symmetric and, for points in the world, within half the extent |
| Geometry.DistanceSquared | zip_sim/zip_sim.py:117-124 | `distance_to` squared: the sum of the two wrapped gaps squared; the three `DistanceSquared…` lemmas prove it symmetric, at most 1000² + 25², and Euclidean away from the seams |
| Geometry.WrappedDeltaSymmetric | zip_sim/zip_sim.py:117-122 | each wrapped distance component is symmetric in its two points |
| Geometry.WrappedDeltaBounded | zip_sim/zip_sim.py:117-122 | each wrapped component lies between 0 and half the extent |
| Geometry.DistanceSquaredSymmetric | zip_sim/zip_sim.py:117-124 | the squared `distance_to` is symmetric |
| Geometry.DistanceSquaredBounded | zip_sim/zip_sim.py:117-124 | the squared distance between two world points is at most 1000² + 25² |
| Geometry.DistanceSquaredDirect | zip_sim/zip_sim.py:117-124 | away from the seams the wrapped distance is the Euclidean one |
| Geometry.MakeCircle | zip_sim/zip_sim.py:178-180 | a circle's centre is normalised, and a centre already in the world is kept |
| Geometry.Contains | zip_sim/zip_sim.py:182-189 | `Circle.contains`: the wrapped squared distance is strictly below the squared radius; `ContainsSymmetric` and `ContainsCentre` are its properties |
| Geometry.ContainsSymmetric | zip_sim/zip_sim.py:182-189 | for equal radii, `a`'s circle contains `b` iff `b`'s circle contains `a` |
| Geometry.ContainsCentre | zip_sim/zip_sim.py:182-189 | a circle of positive radius contains its centre; a point on the rim is outside (strict `<`) |
| Entities.VehicleStep | zip_sim/zip_sim.py:202-204 | `Zip.update` leaves the vehicle inside the world |
| Entities.VehicleStepsCompose | zip_sim/zip_sim.py:199-204 | under one command and one wind the vehicle flies a straight line at the air velocity `(30, lateral)` plus the wind: two steps land where one step of their summed duration lands |
| Entities.TreeCircle | zip_sim/zip_sim.py:230-231 | a tree's collision circle has radius 2 and a normalised centre |
| Entities.TreeLidarObject | zip_sim/zip_sim.py:237-238 | a tree's lidar circle has radius 3 and the same centre as its collision circle |
| Entities.SiteCircle | zip_sim/zip_sim.py:215-216 | a site's circle has radius 5 and a normalised centre |
| Entities.SiteLidarObject | zip_sim/zip_sim.py:222-223 | a site's lidar circle has radius 0.5 and the site's centre |
| Entities.FallStep | zip_sim/zip_sim.py:161-164 | `Package.update` on a package's values: the velocity is kept, the countdown drops by `dt` but not below 0, and the package moves for the time it was still falling; `Package.Update` and `AdvancePackages` are proved to do this to each package |
| Entities.FallStepsCompose | zip_sim/zip_sim.py:161-164 | updating a package by `dt1` and then by `dt2` is one update by `dt1 + dt2`: the countdown and the distance fallen add up |
| Entities.Package.constructor | zip_sim/zip_sim.py:156-159 | a new package is at the normalised release point, keeps the release velocity, and has 0.5 s left to fall |
| Entities.Package.Update | zip_sim/zip_sim.py:161-164 | the countdown drops by `min(dt, remaining)` and never goes below 0 or up; the package moves with its velocity for that time; a landed package stays put; once the total time applied reaches the fall time, it rests at its landing point `wrap(origin + v·0.5)` |
| Entities.Wind.constructor | zip_sim/zip_sim.py:244-246 | the initial speed draw is kept, within `[0, 20]` |
| Entities.Wind.Update | zip_sim/zip_sim.py:248-251 | the new speed is `clamp(speed + step, 0, 20)`, and exactly `speed + step` when that is in range |
| Lidar.ToVehicleFrame | zip_sim/zip_sim.py:303-305 | the relative lateral offset lies in `[−25, 25)`, and the radius is kept |
| Lidar.Candidates | zip_sim/zip_sim.py:302-306 | the candidates are exactly the objects strictly ahead (`x > start.x`), moved to the vehicle frame, each with forward offset > 0 |
| Lidar.Hypot | zip_sim/zip_sim.py:296 | a computed range is never negative |
| Lidar.HitDistance | zip_sim/zip_sim.py:292-296 | the distance to the near intersection point is never negative |
| Lidar.NextRange | zip_sim/zip_sim.py:292-298 | one circle's effect on the running range: a hit nearer than the range replaces it by its rounded distance; `NextRangeBounds` keeps the result in `[0, range]` |
| Lidar.NextRangeBounds | zip_sim/zip_sim.py:297-298 | one more circle never raises the running range, nor makes it negative |
| Lidar.NearestRange | zip_sim/zip_sim.py:279-298 | the running range over all the circles, in order; `NearestRangeMinimal` and `NearestRangeAttained` prove it ends at the least rounded hit distance (or its initial value), and `NearestRangeBounds` and `NearestRangeNoHit` bound it |
| Lidar.NearestRangeBounds | zip_sim/zip_sim.py:279-298 | the running range over all circles stays between 0 and its initial value |
| Lidar.NearestRangeNoHit | zip_sim/zip_sim.py:279-298 | a ray that meets no circle keeps its initial range |
| Lidar.NearestRangeAtMost | zip_sim/zip_sim.py:279-298 | the running range never grows, for any square root |
| Lidar.NearestRangeMinimal | zip_sim/zip_sim.py:279-298 | the final range is at most the rounded distance of every circle the ray hits, wherever it stands in the list |
| Lidar.NearestRangeAttained | zip_sim/zip_sim.py:279-298 | the final range is the initial one or the rounded distance of some circle the ray hits |
| Lidar.RayReading | zip_sim/zip_sim.py:269-299 | `cast_lidar_ray` as a specification: 0 when the sensor is inside a circle, else the nearest range, with the no-hit range 256 read as 0; `RayReadingNearest` proves the reading is the nearest hit, `CastRay` is proved to compute it, `RayReadingBounds` and `RayReadingZero` bound it |
| Lidar.RayReadingBounds | zip_sim/zip_sim.py:299 | every reading is a u8 in `0..255` |
| Lidar.RayReadingZero | zip_sim/zip_sim.py:280-299 | a blind ray, or one that hits nothing, reads 0 |
| Lidar.RayReadingNearest | zip_sim/zip_sim.py:269-299 | unless the sensor is blind, a non-zero reading is the rounded distance of a circle the ray hits; no hit whose rounded distance is within 255 reads nearer; and when some hit is within 255, the reading is the rounded distance of a hit, so it is the nearest one |
| Lidar.CastRay | zip_sim/zip_sim.py:269-299 | the loop returns the specified reading, in `0..255`, and 0 if the origin lies inside any candidate |
| Lidar.CastLidar | zip_sim/zip_sim.py:302-307 | 31 readings, the `k`-th being ray `k`'s reading of the candidates, each in `0..255` |
| Lidar.AllRaysZero | zip_sim/zip_sim.py:269-307 | with the sensor inside a candidate, or nothing ahead, all 31 readings are 0 |
| Protocol.U16RoundTrip | zip_sim/zip_sim.py:92 | a big-endian `H` field decodes to the value encoded |
| Protocol.I16RoundTrip | zip_sim/zip_sim.py:92 | a big-endian two's-complement `h` field decodes to the value encoded |
| Protocol.I8RoundTrip | zip_sim/zip_sim.py:92 | a two's-complement `b` field decodes to the value encoded |
| Protocol.U16BytesRoundTrip | zip_sim/zip_sim.py:92 | every two bytes are the `H` encoding of the value they decode to |
| Protocol.I16BytesRoundTrip | zip_sim/zip_sim.py:92 | every two bytes are the `h` encoding of the value they decode to |
| Protocol.I8ByteRoundTrip | zip_sim/zip_sim.py:92 | every byte is the `b` encoding of the value it decodes to |
| Protocol.EncodeTelemetry | zip_sim/zip_sim.py:395-401 | a packed telemetry frame is 44 bytes |
| Protocol.TelemetryRoundTrip | zip_sim/zip_sim.py:395-401 | unpacking a packed frame yields the same six fields |
| Protocol.TelemetryFrameRoundTrip | zip_sim/zip_sim.py:395-401 | every 44-byte frame is the packing of what it unpacks to, so a telemetry frame is determined by its decoding |
| Protocol.TimestampMs | zip_sim/zip_sim.py:395 | the timestamp is truncated to 16 bits |
| Protocol.RecoveryXError | zip_sim/zip_sim.py:396 | the rounded forward distance to the recovery line; `TelemetryFits` bounds it to `[−5, 1995]` from any world position |
| Protocol.RecoveryYError | zip_sim/zip_sim.py:399-400 | the rounded lateral offset from `y = 0`, taken the short way round; `TelemetryFits` bounds it to `[−25, 25]` |
| Protocol.TelemetryFits | zip_sim/zip_sim.py:395-400 | from any world position, the recovery x error lies in `[−5, 1995]` and the y error in `[−25, 25]`, so every field fits `>Hhffb31B` |
| Protocol.EncodeCommand | zip_sim/zip_sim.py:93 | a packed command frame is 8 bytes |
| Protocol.DecodeCommand | zip_sim/zip_sim.py:404-408 | a reply unpacks iff it is exactly 8 bytes long |
| Protocol.CommandRoundTrip | zip_sim/zip_sim.py:404-408 | unpacking a packed command yields the same fields |
| Protocol.CommandFrameRoundTrip | zip_sim/zip_sim.py:404-408 | every 8-byte reply is the packing of what it unpacks to |
| Protocol.ReplyCommand | zip_sim/zip_sim.py:404-410 | an 8-byte reply commands a drop iff its byte 4 is non-zero, and two 8-byte replies that agree on bytes 0..4 command the same thing |
| Protocol.ReservedIgnored | zip_sim/zip_sim.py:408 | the three reserved bytes do not affect the command |
| Scoring.CountIn | zip_sim/zip_sim.py:519-527 | a site holds at most as many packages as there are |
| Scoring.SiteCounts | zip_sim/zip_sim.py:518-527 | the dictionary `package_count_by_site` as a value: each site holding a package, mapped to how many it holds; `CountPackagesBySite` is proved to build it and `Deliveries` counts its keys |
| Scoring.Violations | zip_sim/zip_sim.py:534 | the sum of `count − 1` over the sites holding more than one package; `ViolationsIdentity` and `NoViolationsIff` are its properties |
| Scoring.Deliveries | zip_sim/zip_sim.py:533 | the sites with a count are exactly the sites holding at least one package, and there are at most as many as there are sites |
| Scoring.ViolationsIdentity | zip_sim/zip_sim.py:533-534 | violations + deliveries = the total number of (package, containing site) pairs |
| Scoring.NoViolationsIff | zip_sim/zip_sim.py:534 | there are no violations iff no site holds two packages |
| Scoring.CountPackagesBySite | zip_sim/zip_sim.py:518-527 | the nested loop builds exactly the map from each site that holds a package to the number it holds |
| Simulation.ExitCode | zip_sim/zip_sim.py:96-99 | the exit code is in `0..3`, and 0 exactly for a recovery |
| Simulation.RecoveryOutcome | zip_sim/zip_sim.py:443-445 | past the line, `Recovered` inside the band `y ≤ 7.5 or y ≥ 42.5` and `Paralanded` outside it; `RecoveredNearCentreline` states the band as a distance |
| Simulation.RecoveredNearCentreline | zip_sim/zip_sim.py:444-445 | past the line, the vehicle is recovered iff it is within 7.5 m of `y = 0` across the seam, and parachute-landed otherwise |
| Simulation.HitsTree | zip_sim/zip_sim.py:424-427 | some tree's collision circle contains the point; `CollidesWithTree` is proved to decide it |
| Simulation.CollidesWithTree | zip_sim/zip_sim.py:424-427 | the loop reports a crash iff some tree's collision circle contains the vehicle |
| Simulation.ScanBounds | zip_sim/zip_sim.py:394 | a scan is 31 readings in `0..255` |
| Simulation.TickTelemetryPackable | zip_sim/zip_sim.py:394-401 | from any world position the tick's telemetry can be packed |
| Simulation.Released | zip_sim/zip_sim.py:435 | the release test: a drop commanded now, not on the previous tick, with a package on board; `Releases`, `ReleasesAreRisingEdges` and `HeldCommandOneEdge` count what it lets through |
| Simulation.Releases | zip_sim/zip_sim.py:435-439 | no more packages are released than were on board, or than there were ticks |
| Simulation.ReleasesAreRisingEdges | zip_sim/zip_sim.py:435-439 | a package is released on each rising edge of the drop command until none are left |
| Simulation.HeldCommandOneEdge | zip_sim/zip_sim.py:435-439 | a drop command held on has at most one rising edge, so it releases at most one package |
| Simulation.NextState | zip_sim/zip_sim.py:403-441 | one tick on the recorded state (position, wind speed, packages on board, debounce flag): a short reply changes nothing, a command steps the vehicle, releases on a rising edge and steps the wind; `Tick` is proved to follow it |
| Simulation.NextStateReleases | zip_sim/zip_sim.py:404-439 | one tick leaves on board the packages minus the releases its reply commands (none for a short reply), and the debounce flag is the last drop flag read |
| Simulation.ReleasesConcat | zip_sim/zip_sim.py:435-439 | releases over two runs of commands in a row add up, the second run starting from the flag and the packages the first left |
| Simulation.ReleasesAlong | zip_sim/zip_sim.py:435-439 | packages on board and flags that follow the release rule tick by tick are, after `n` ticks, what `Releases` gives over those ticks' drop flags |
| Simulation.TracedReleases | zip_sim/zip_sim.py:391-446 | along a run's trace, the packages on board after `n` ticks are those at the start minus the `Releases` of the drop commands actually read, and the debounce flag is the last one read |
| Simulation.SimulationState.constructor | zip_sim/zip_sim.py:377-389 | the vehicle starts at (0, 0), flying straight, with one package per site and no result |
| Simulation.SimulationState.AdvancePackages | zip_sim/zip_sim.py:429-430 | every dropped package is updated by `dt`, in place and in order: each one's values become `FallStep` of its old ones, and `Valid()` is kept |
| Simulation.SimulationState.SendTelemetry | zip_sim/zip_sim.py:393-401 | the frame decodes into the current state's telemetry: the timestamp, the two recovery errors, the wind's f32 fields and the 31 lidar readings of the trees' and sites' lidar circles; by `TelemetryFrameRoundTrip` it is exactly that telemetry's packing |
| Simulation.SimulationState.Tick | zip_sim/zip_sim.py:391-446 | one pass of the loop; see below |
| Simulation.SimulationState.Step | zip_sim/zip_sim.py:421-446 | the physics of one tick once a command has been read: the vehicle takes one step, the wind speed its clamped step, `Stepped` holds from the cargo before, and `Valid()` is kept |
| Simulation.SimulationState.Move | zip_sim/zip_sim.py:421-439 | fly, then update the packages: the airspeed is clamped, the vehicle takes one step, the result is `Crashed` iff a tree contains the new position, and `CargoStepped` holds with the release at the new position and the vehicle's velocity |
| Simulation.SimulationState.Recover | zip_sim/zip_sim.py:443-446 | past `x ≥ 1995` the result becomes the `RecoveryOutcome` of the position, whatever it was; before the line it is kept |
| Simulation.SimulationState.Fly | zip_sim/zip_sim.py:409-427 | the airspeed is clamped to ±30 and the vehicle takes one step; the result is `Crashed` iff a tree contains the new position |
| Simulation.SimulationState.UpdatePackages | zip_sim/zip_sim.py:429-439 | `CargoStepped`: the old packages advance by one tick (`FallSteps`) and keep their places; one more is appended iff the drop is a rising edge with packages left, at the vehicle, with its velocity and 0.5 s to fall; the debounce flag becomes the command |
| Simulation.SimulationState.Release | zip_sim/zip_sim.py:435-439 | on a rising edge with packages on board, one fewer is on board and a fresh package is appended at the vehicle's position with the given velocity and 0.5 s to fall; otherwise nothing changes but the flag, which becomes the command |
| Simulation.SimulationState.Run | zip_sim/zip_sim.py:391-446 | ticks run while no result is set: every tick but the last leaves it unset and the last leaves the final result; frame `k` decodes into the telemetry of recorded state `k`, state `k + 1` is `NextState` of state `k` under tick `k`'s inputs, and the last state is the final one; released packages stay in order at the front |
| Simulation.SimulationState.TracedTick | zip_sim/zip_sim.py:391-446 | one pass of the loop inside a run: the trace extended by this tick's frame and new state still follows the inputs |
| Simulation.SimulationState.Score | zip_sim/zip_sim.py:518-534 | settles every package at its landing point, then returns the deliveries (at most the number of sites) and the violations (deliveries + violations = total matches; no violations iff no site holds two) |
| WorldGeneration.RoundTenth | zip_sim/zip_sim.py:350-351 | `round(x, 1)` is within 0.05 of `x` |
| WorldGeneration.RoundTenthWithin | zip_sim/zip_sim.py:350-351 | rounding to a tenth stays within whole-number bounds |
| WorldGeneration.SiteCandidate | zip_sim/zip_sim.py:350-351 | a site draw lands in `[0, 2000] × [0, 50]`, the far edge included |
| WorldGeneration.FarFromAll | zip_sim/zip_sim.py:352-353 | the acceptance test: the candidate is at least the minimum distance from every site so far (vacuously true with none) |
| WorldGeneration.PlaceSites | zip_sim/zip_sim.py:346-355 | rejection sampling of the sites over a finite sequence of draws; `PlaceSitesProperties` and `SitesPairwiseApart` are its properties, and `GenerateSites` is proved to compute it |
| WorldGeneration.TreeCandidateInRange | zip_sim/zip_sim.py:366-367 | a tree draw in its bounds stays in them once rounded |
| WorldGeneration.PlaceSitesProperties | zip_sim/zip_sim.py:346-355 | each placed site was accepted against all the sites before it; at most ten are placed, in order |
| WorldGeneration.DistanceToEdgePoint | zip_sim/zip_sim.py:117-124 | a raw position on the far edge is at the same wrapped distance as its normalised point |
| WorldGeneration.SitesPairwiseApart | zip_sim/zip_sim.py:346-355 | every two generated sites' circles are at least 100 m apart |
| WorldGeneration.GenerateSites | zip_sim/zip_sim.py:346-355 | the sampling loop places exactly the specified sites, at most ten |
| WorldGeneration.NumTrees | zip_sim/zip_sim.py:359-361 | the tree count is in `0..100`: at least 20 when the density is, at most 20 otherwise |
| WorldGeneration.TreeCandidate | zip_sim/zip_sim.py:366-367 | a tree draw rounded to tenths; `TreeCandidateInRange` keeps an in-bounds draw in bounds |
| WorldGeneration.PlaceTrees | zip_sim/zip_sim.py:362-370 | rejection sampling of the trees against the sites; `PlaceTreesProperties` and `TreesClearOfSites` are its properties, and `GenerateTrees` is proved to compute it |
| WorldGeneration.PlaceTreesProperties | zip_sim/zip_sim.py:362-370 | every placed tree is at least 10 m from every site, and at most `count` are placed |
| WorldGeneration.TreesFromDraws | zip_sim/zip_sim.py:366-367 | trees from in-range draws lie in the world or on its far edge |
| WorldGeneration.TreesClearOfSites | zip_sim/zip_sim.py:362-370 | every generated tree's circle is at least 10 m from every site's circle |
| WorldGeneration.GenerateTrees | zip_sim/zip_sim.py:362-370 | the sampling loop places exactly the specified trees, at most `count`, each clear of every site |

`Tick` states the whole new state.

- The frame sent decodes into the telemetry of the state before the tick. By
  `TelemetryFrameRoundTrip` it is exactly that telemetry's packing. `loopCount`
  grows by one.
- The recorded state (position, wind speed, packages on board, debounce flag)
  becomes `NextState` of the recorded state before, under the tick's inputs.
- A reply that is not 8 bytes gives `Crashed`, and nothing else changes.
- Otherwise `Stepped` holds between the cargo before the tick (`Cargo()`, a
  value holding each package's position, velocity and fall time) and the state
  after it, for the decoded command:
  - the lateral airspeed is `clamp(command, −30, 30)`;
  - the vehicle takes one step with that airspeed and the wind `heading · speed`;
  - every earlier package advances by one tick and keeps its place;
  - at most one package is added. One is added iff the drop flag is non-zero, was
    zero on the previous tick, and packages remain. It is added at the new
    position, with the vehicle's velocity;
  - the debounce flag becomes the drop flag;
  - the wind speed takes its clamped step;
  - the result is `RecoveryOutcome` past `x ≥ 1995`, even if a tree was hit,
    else `Crashed` if a tree contains the vehicle, else none.
- `Valid()` is kept: `numPackages + |droppedPackages| = |sites|`, every package
  valid and distinct, and the vehicle inside the world.
- `Tick` requires that no result is set, so no tick runs after termination.

`Run` records the state before each tick and after the last, and the result
after each tick. `TracedReleases` then gives the packages on board and the
debounce flag after any number of ticks from the drop commands read.

## Left out

- Rendering, the camera, sprites, the keyboard piloting mode, the pause and step
  controls and the `SIM_QUIT` events (zip_sim.py:411-419, 448-512). `Outcome.Quit`
  exists only as an exit code.
- Argument parsing, starting and closing the pilot process, `print` and `sys.exit`.
- Randomness: every draw (wind steps, site and tree positions, the tree density and
  the triangular draw) is an input.
- `Wind.vector` and the direction's random walk (cos, sin, `% 2π`): each tick takes a
  heading as input, and the wind vector is the speed times that heading. The
  proofs hold for any heading, not only the unit vectors the source produces.
- `LIDAR_ANGLES` (trigonometry): the rays are inputs. Each ray is only assumed not
  to run parallel to the lateral axis.
- The square root: it is an input, assumed only to be non-negative. Hence
  `CastRay` and `RayReading` are not proved to return a positive range for a hit.
- IEEE-754: the f32 fields are 4 opaque bytes produced and read by supplied
  functions. Every arithmetic operation is exact on reals, so rounding error, NaN
  and infinities are not modelled. This includes a NaN lateral airspeed passing
  through `max`/`min`.
- `round(x, 1)` is modelled as rounding `10x` half-to-even and dividing by 10. It
  does not model Python's correctly rounded decimal `round` on binary floats.
- `TimestampMs`: `int(loop_count * DT_SEC * 1e3)` truncates, modelled as `Floor`
  on exact reals. Loop counts are non-negative, so `Floor` equals truncation there.
  The float product is not modelled.
- `distance_to` is modelled by its square, and every test compares it with a
  non-negative threshold. This relies on an exact square root.
- The tree sort by forward coordinate (zip_sim.py:372) only orders the trees for
  drawing. The model keeps the trees in generation order. The lidar reading does
  not depend on that order: `NearestRangeMinimal` and `NearestRangeAttained` make
  it the least rounded hit distance whatever the order of the circles.
- `WorldGeneration.GenerateSites` and `WorldGeneration.GenerateTrees`: the source
  retries forever until each site or tree is placed. The model consumes a finite
  sequence of draws and stops when it runs out, so it may place fewer.
- `Simulation.SimulationState.Score` settles all packages first and then counts. The
  source settles and counts one package at a time. A package's count depends only
  on its own settled position, so the totals are the same.
- `Simulation.SimulationState.Run` runs on finite input sequences. It stops when
  they are used up even if no result is set.
- The reticle computation (zip_sim.py:477-481) draws only.

=== FILE: entities.dfy ===
/** The simulator's constants and the entities that live in the world: the
    vehicle's velocity, the two circles of every tree and delivery site, the
    falling packages and the wind speed. */
module Entities {
  import opened Numbers
  import opened Geometry

  // ---------------------------------------------------------------------------
  // Constants (zip_sim.py:14, 44-83)

  /** The time step: one tick at 60 Hz. */
  const DT_SEC: real := 1.0 / 60.0
  const PACKAGE_FALL_SEC: real := 0.5
  const RECOVERY_X: real := WORLD_LENGTH - 5.0
  const RECOVERY_Y_MIN: real := 7.5
  const RECOVERY_Y_MAX: real := WORLD_WIDTH - 7.5
  const NUM_DELIVERY_SITES: nat := 10
  const TYPICAL_NUM_TREES: nat := 20
  const MAX_NUM_TREES: nat := 100
  const VEHICLE_AIRSPEED: real := 30.0
  const MAX_WINDSPEED_M_S: real := 20.0
  /** The bound the lateral airspeed command is clamped to. */
  const MAX_LATERAL_AIRSPEED: real := 30.0
  const DELIVERY_SITE_RADIUS: real := 5.0
  const DELIVERY_SITE_LIDAR_RADIUS: real := 0.5
  const TREE_COLLISION_RADIUS: real := 2.0
  const TREE_LIDAR_RADIUS: real := 3.0
  /** The vehicle's own radius. No collision test uses it: a crash is a tree's
      collision circle containing the vehicle's centre. */
  const VEHICLE_RADIUS: real := 1.6

  // ---------------------------------------------------------------------------
  // The vehicle (zip_sim.py:192-204)

  /** Zip.get_velocity: the ground velocity is the air velocity (constant
      forward airspeed, commanded lateral airspeed) plus the wind. */
  function Velocity(lateralAirspeed: real, wind: Vec): (v: Vec)
    ensures v.x - wind.x == VEHICLE_AIRSPEED
    ensures v.y - wind.y == lateralAirspeed
  {
    Vec(VEHICLE_AIRSPEED + wind.x, lateralAirspeed + wind.y)
  }

  /** Zip.update: one integration step of the vehicle's position. */
  function VehicleStep(position: Vec, dt: real, lateralAirspeed: real, wind: Vec): (p: Vec)
    ensures InWorld(p)
  {
    Move(position, Velocity(lateralAirspeed, wind).Scale(dt))
  }

  /** Under a fixed command and wind the vehicle flies a straight line: two
      steps land where one step of their summed duration lands. */
  lemma VehicleStepsCompose(position: Vec, dt1: real, dt2: real, lateralAirspeed: real, wind: Vec)
    ensures VehicleStep(VehicleStep(position, dt1, lateralAirspeed, wind), dt2, lateralAirspeed, wind)
         == VehicleStep(position, dt1 + dt2, lateralAirspeed, wind)
  {
    var v := Velocity(lateralAirspeed, wind);
    MoveCompose(position, v.Scale(dt1), v.Scale(dt2));
    ScaleAdd(v, dt1, dt2);
  }

  // ---------------------------------------------------------------------------
  // Trees and delivery sites (zip_sim.py:211-238): one position, two circles

  function TreeCircle(position: Vec): (c: Circle)
    ensures c.radius == TREE_COLLISION_RADIUS && InWorld(c.center)
  {
    MakeCircle(position, TREE_COLLISION_RADIUS)
  }

  function TreeLidarObject(position: Vec): (c: Circle)
    ensures c.radius == TREE_LIDAR_RADIUS && c.center == TreeCircle(position).center
  {
    MakeCircle(position, TREE_LIDAR_RADIUS)
  }

  function SiteCircle(position: Vec): (c: Circle)
    ensures c.radius == DELIVERY_SITE_RADIUS && InWorld(c.center)
  {
    MakeCircle(position, DELIVERY_SITE_RADIUS)
  }

  function SiteLidarObject(position: Vec): (c: Circle)
    ensures c.radius == DELIVERY_SITE_LIDAR_RADIUS && c.center == SiteCircle(position).center
  {
    MakeCircle(position, DELIVERY_SITE_LIDAR_RADIUS)
  }

  // ---------------------------------------------------------------------------
  // Packages (zip_sim.py:150-164)

  /** What a falling package's update depends on and changes: where it is,
      the velocity it was released with, and the fall time left. */
  datatype Fall = Fall(position: Vec, velocity: Vec, fallDuration: real)

  /** Package.update on values: the countdown drops by dt but not below 0,
      and the package moves with its velocity for the time it was still
      falling. */
  function FallStep(f: Fall, dt: real): (g: Fall)
    ensures g.velocity == f.velocity
    ensures g.fallDuration == Max(0.0, f.fallDuration - dt)
  {
    var left := Max(0.0, f.fallDuration - dt);
    Fall(Move(f.position, f.velocity.Scale(f.fallDuration - left)), f.velocity, left)
  }

  /** Updating by dt1 and then by dt2 is one update by dt1 + dt2: the
      countdown and the distance fallen both add up. */
  lemma FallStepsCompose(f: Fall, dt1: real, dt2: real)
    requires 0.0 <= dt1 && 0.0 <= dt2
    ensures FallStep(FallStep(f, dt1), dt2) == FallStep(f, dt1 + dt2)
  {
    var g := FallStep(f, dt1);
    var h := FallStep(g, dt2);
    var s1, s2 := f.fallDuration - g.fallDuration, g.fallDuration - h.fallDuration;
    assert h.fallDuration == Max(0.0, f.fallDuration - (dt1 + dt2));
    MoveCompose(f.position, f.velocity.Scale(s1), f.velocity.Scale(s2));
    ScaleAdd(f.velocity, s1, s2);
    assert s1 + s2 == f.fallDuration - h.fallDuration;
  }

  /** A released package. It keeps the velocity it had at release and falls for
      a fixed time; once the countdown reaches zero it rests where it landed.
      The ghost fields record where it was released and how much time has been
      applied to it, so that its position can be stated in closed form. */
  class Package {
    var position: Vec
    const velocity: Vec
    var fallDuration: real

    ghost const origin: Vec
    ghost const initialFall: real
    ghost var elapsed: real

    ghost predicate Valid()
      reads this
    {
      && 0.0 <= fallDuration <= initialFall
      && 0.0 <= elapsed
      && fallDuration == Max(0.0, initialFall - elapsed)
      && position == Move(origin, velocity.Scale(initialFall - fallDuration))
    }

    function State(): Fall
      reads this
    {
      Fall(position, velocity, fallDuration)
    }

    /** Where the package comes to rest. */
    ghost function LandingPoint(): Vec
      reads this
    {
      Move(origin, velocity.Scale(initialFall))
    }

    constructor (position: Vec, velocity: Vec)
      ensures Valid()
      ensures this.position == Normalize(position) && this.velocity == velocity
      ensures fallDuration == PACKAGE_FALL_SEC
      ensures origin == position && initialFall == PACKAGE_FALL_SEC && elapsed == 0.0
    {
      this.position := Normalize(position);
      this.velocity := velocity;
      this.fallDuration := PACKAGE_FALL_SEC;
      this.origin := position;
      this.initialFall := PACKAGE_FALL_SEC;
      this.elapsed := 0.0;
      new;
      assert velocity.Scale(0.0) == Vec(0.0, 0.0);
      assert position.Plus(Vec(0.0, 0.0)) == position;
    }

    /** The package's state is its previous state advanced by dt: the
        countdown drops by dt but not below 0, and the package moves with its
        velocity for exactly the time it was still falling. */
    twostate predicate Advanced(dt: real)
      reads this
    {
      && fallDuration == Max(0.0, old(fallDuration) - dt)
      && position == Move(old(position), velocity.Scale(old(fallDuration) - fallDuration))
      && elapsed == old(elapsed) + dt
    }

    /** Package.update: advance by dt, but never past the end of the fall. */
    method Update(dt: real)
      requires Valid() && dt >= 0.0
      modifies this
      ensures Valid() && Advanced(dt)
      ensures fallDuration <= old(fallDuration)
      ensures old(fallDuration) == 0.0 ==> position == old(position)
      ensures elapsed >= initialFall ==> fallDuration == 0.0 && position == LandingPoint()
    {
      var step := Min(dt, fallDuration);
      fallDuration := fallDuration - step;
      position := Move(position, velocity.Scale(step));
      elapsed := elapsed + dt;
      MoveCompose(origin, velocity.Scale(initialFall - old(fallDuration)), velocity.Scale(step));
      ScaleAdd(velocity, initialFall - old(fallDuration), step);
      assert initialFall - old(fallDuration) + step == initialFall - fallDuration;
      if old(fallDuration) == 0.0 {
        assert velocity.Scale(0.0) == Vec(0.0, 0.0);
        MoveByZero(old(position));
      }
    }
  }

  // ---------------------------------------------------------------------------
  // Wind (zip_sim.py:241-251): only the speed's random walk is modelled

  class Wind {
    var speed: real

    ghost predicate Valid()
      reads this
    {
      0.0 <= speed <= MAX_WINDSPEED_M_S
    }

    /** Wind.__init__, with the uniform draw for the speed passed in. */
    constructor (initialSpeed: real)
      requires 0.0 <= initialSpeed <= MAX_WINDSPEED_M_S
      ensures Valid() && speed == initialSpeed
    {
      speed := initialSpeed;
    }

    /** Wind.update: add the Gaussian step (passed in) and clamp to
        [0, MAX_WINDSPEED_M_S]. */
    method Update(speedStep: real)
      modifies this
      ensures Valid()
      ensures speed == Clamp(old(speed) + speedStep, 0.0, MAX_WINDSPEED_M_S)
      ensures 0.0 <= old(speed) + speedStep <= MAX_WINDSPEED_M_S ==> speed == old(speed) + speedStep
    {
      speed := Max(0.0, Min(MAX_WINDSPEED_M_S, speed + speedStep));
    }
  }
}

=== FILE: geometry.dfy ===
/** The toroidal world: positions are kept in [0, WORLD_LENGTH) x [0, WORLD_WIDTH),
    both axes wrap, and distances are measured the short way round. */
module Geometry {
  import opened Numbers

  const WORLD_WIDTH: real := 50.0
  const WORLD_LENGTH: real := 2000.0
  const WORLD_WIDTH_HALF: real := WORLD_WIDTH / 2.0
  const WORLD_LENGTH_HALF: real := WORLD_LENGTH / 2.0

  /** A position, a displacement or a velocity (the source's 2-tuples). */
  datatype Vec = Vec(x: real, y: real) {
    function Plus(d: Vec): Vec { Vec(x + d.x, y + d.y) }
    function Scale(k: real): Vec { Vec(k * x, k * y) }
  }

  /** Scaling distributes over a sum of factors. */
  lemma ScaleAdd(v: Vec, a: real, b: real)
    ensures v.Scale(a).Plus(v.Scale(b)) == v.Scale(a + b)
  {
    assert a * v.x + b * v.x == (a + b) * v.x;
    assert a * v.y + b * v.y == (a + b) * v.y;
  }

  ghost predicate InWorld(p: Vec) {
    0.0 <= p.x < WORLD_LENGTH && 0.0 <= p.y < WORLD_WIDTH
  }

  // ---------------------------------------------------------------------------
  // Python's `x % extent` on a positive extent

  lemma MulLe(a: real, b: real, e: real)
    requires a <= b && e > 0.0
    ensures a * e <= b * e
  {}

  lemma MulLt(a: real, b: real, e: real)
    requires a < b && e > 0.0
    ensures a * e < b * e
  {}

  lemma FloorDivBounds(x: real, e: real)
    requires e > 0.0
    ensures 0.0 <= x - (x / e).Floor as real * e < e
  {
    var q := x / e;
    var kr := q.Floor as real;
    MulLe(kr, q, e);
    MulLt(q, kr + 1.0, e);
    assert q * e == x;
    assert (kr + 1.0) * e == kr * e + e;
    assert q * e < (kr + 1.0) * e;
    assert x < kr * e + e;
  }

  /** The floored remainder of x by extent. */
  function Wrap(x: real, extent: real): (r: real)
    requires extent > 0.0
    ensures 0.0 <= r < extent
  {
    FloorDivBounds(x, extent);
    x - (x / extent).Floor as real * extent
  }

  lemma NegativeFactor(a: real, e: real)
    requires e > 0.0 && a * e < 0.0
    ensures a < 0.0
  {}

  /** Two values in [0, e) that differ by a whole number of periods are equal. */
  lemma SamePeriodRepresentative(r: real, s: real, e: real, j: int)
    requires e > 0.0
    requires 0.0 <= r < e && 0.0 <= s < e
    requires r - s == j as real * e
    ensures r == s
  {
    var jr := j as real;
    assert (jr - 1.0) * e == jr * e - e;
    assert (-1.0 - jr) * e == -e - jr * e;
    NegativeFactor(jr - 1.0, e);
    NegativeFactor(-1.0 - jr, e);
    assert j == 0;
  }

  /** Wrap(x, e) is THE value in [0, e) that differs from x by a whole number
      of periods: any such value is equal to it. */
  lemma {:induction false} WrapUnique(x: real, e: real, r: real, j: int)
    requires e > 0.0
    requires 0.0 <= r < e
    requires x == r + j as real * e
    ensures Wrap(x, e) == r
  {
    var k := (x / e).Floor;
    var w := Wrap(x, e);
    assert w == x - k as real * e;
    assert (k - j) as real * e == k as real * e - j as real * e;
    SamePeriodRepresentative(r, w, e, k - j);
  }

  /** A value already in [0, e) is left alone. */
  lemma WrapInRange(x: real, e: real)
    requires e > 0.0 && 0.0 <= x < e
    ensures Wrap(x, e) == x
  {
    WrapUnique(x, e, x, 0);
  }

  /** Adding to a wrapped value and wrapping again is the same as adding first:
      wrapping never loses anything but whole periods. */
  lemma WrapAdd(x: real, y: real, e: real)
    requires e > 0.0
    ensures Wrap(Wrap(x, e) + y, e) == Wrap(x + y, e)
  {
    var k := (x / e).Floor;
    var k' := ((x + y) / e).Floor;
    var r := Wrap(x + y, e);
    assert Wrap(x, e) + y == r + (k' - k) as real * e by {
      assert (k' - k) as real * e == k' as real * e - k as real * e;
    }
    WrapUnique(Wrap(x, e) + y, e, r, k' - k);
  }

  // ---------------------------------------------------------------------------
  // Entity: a normalised position (zip_sim.py:106-115)

  /** Entity.__init__: both coordinates reduced into the world. */
  function Normalize(p: Vec): (q: Vec)
    ensures InWorld(q)
  {
    Vec(Wrap(p.x, WORLD_LENGTH), Wrap(p.y, WORLD_WIDTH))
  }

  lemma NormalizeInWorld(p: Vec)
    ensures InWorld(p) ==> Normalize(p) == p
  {
    if InWorld(p) {
      WrapInRange(p.x, WORLD_LENGTH);
      WrapInRange(p.y, WORLD_WIDTH);
    }
  }

  /** Entity.move: add a displacement and re-normalise. */
  function Move(p: Vec, delta: Vec): (q: Vec)
    ensures InWorld(q)
  {
    Normalize(p.Plus(delta))
  }

  /** Two successive moves land where one move by the summed displacement
      lands, whether or not the start was normalised. */
  lemma MoveCompose(p: Vec, d1: Vec, d2: Vec)
    ensures Move(Move(p, d1), d2) == Move(p, d1.Plus(d2))
  {
    WrapAdd(p.x + d1.x, d2.x, WORLD_LENGTH);
    WrapAdd(p.y + d1.y, d2.y, WORLD_WIDTH);
    assert p.x + d1.x + d2.x == p.x + (d1.x + d2.x);
    assert p.y + d1.y + d2.y == p.y + (d1.y + d2.y);
  }

  /** Moving by nothing leaves a normalised position where it is. */
  lemma MoveByZero(p: Vec)
    requires InWorld(p)
    ensures Move(p, Vec(0.0, 0.0)) == p
  {
    assert p.Plus(Vec(0.0, 0.0)) == p;
    NormalizeInWorld(p);
  }

  // ---------------------------------------------------------------------------
  // Wrapped distance (zip_sim.py:117-124) and containment (zip_sim.py:182-189)

  /** One component of the toroidal distance: |a - b|, or extent - |a - b|
      when the difference is more than half the extent. */
  function WrappedDelta(a: real, b: real, extent: real): real {
    var d := if a >= b then a - b else b - a;
    if d > extent / 2.0 then extent - d else d
  }

  /** The wrapped component is symmetric in its two points. */
  lemma WrappedDeltaSymmetric(a: real, b: real, extent: real)
    ensures WrappedDelta(a, b, extent) == WrappedDelta(b, a, extent)
  {}

  /** For two points on the axis the wrapped component is between 0 and half
      the extent. */
  lemma WrappedDeltaBounded(a: real, b: real, extent: real)
    requires 0.0 <= a < extent && 0.0 <= b < extent
    ensures 0.0 <= WrappedDelta(a, b, extent) <= extent / 2.0
  {}

  /** The square of Entity.distance_to: the model compares squared distances
      with squared thresholds, so no square root is needed. */
  function DistanceSquared(a: Vec, b: Vec): real {
    var dx := WrappedDelta(a.x, b.x, WORLD_LENGTH);
    var dy := WrappedDelta(a.y, b.y, WORLD_WIDTH);
    dx * dx + dy * dy
  }

  lemma {:induction false} DistanceSquaredSymmetric(a: Vec, b: Vec)
    ensures DistanceSquared(a, b) == DistanceSquared(b, a)
  {
    WrappedDeltaSymmetric(a.x, b.x, WORLD_LENGTH);
    WrappedDeltaSymmetric(a.y, b.y, WORLD_WIDTH);
  }

  lemma SquareMonotone(a: real, b: real)
    requires 0.0 <= a <= b
    ensures a * a <= b * b
  {
    MulLe(a, b, a + 1.0);
    MulLe(a, b, b + 1.0);
  }

  /** No two points of the world are further apart than half its diagonal. */
  lemma {:induction false} DistanceSquaredBounded(a: Vec, b: Vec)
    requires InWorld(a) && InWorld(b)
    ensures 0.0 <= DistanceSquared(a, b) <= WORLD_LENGTH_HALF * WORLD_LENGTH_HALF + WORLD_WIDTH_HALF * WORLD_WIDTH_HALF
  {
    var dx := WrappedDelta(a.x, b.x, WORLD_LENGTH);
    var dy := WrappedDelta(a.y, b.y, WORLD_WIDTH);
    WrappedDeltaBounded(a.x, b.x, WORLD_LENGTH);
    WrappedDeltaBounded(a.y, b.y, WORLD_WIDTH);
    SquareMonotone(dx, WORLD_LENGTH_HALF);
    SquareMonotone(dy, WORLD_WIDTH_HALF);
    SquareMonotone(0.0, dx);
    SquareMonotone(0.0, dy);
  }

  /** Away from the seams the wrapped distance is the ordinary one. */
  lemma DistanceSquaredDirect(a: Vec, b: Vec)
    requires Abs(a.x - b.x) <= WORLD_LENGTH_HALF && Abs(a.y - b.y) <= WORLD_WIDTH_HALF
    ensures DistanceSquared(a, b) == (a.x - b.x) * (a.x - b.x) + (a.y - b.y) * (a.y - b.y)
  {}

  datatype Circle = Circle(center: Vec, radius: real)

  /** Circle.__init__: the centre is normalised like any Entity. */
  function MakeCircle(position: Vec, radius: real): (c: Circle)
    ensures InWorld(c.center) && c.radius == radius
    ensures InWorld(position) ==> c.center == position
  {
    NormalizeInWorld(position);
    Circle(Normalize(position), radius)
  }

  /** Circle.contains: strictly inside, by the wrapped squared distance. */
  predicate Contains(c: Circle, p: Vec) {
    DistanceSquared(c.center, p) < c.radius * c.radius
  }

  /** Containment only depends on the distance, so it is symmetric in the
      two points for circles of equal radius. */
  lemma ContainsSymmetric(a: Vec, b: Vec, radius: real)
    ensures Contains(Circle(a, radius), b) <==> Contains(Circle(b, radius), a)
  {
    DistanceSquaredSymmetric(a, b);
  }

  /** A circle of positive radius contains its own centre, and a point exactly
      on the rim is outside (the test is strict). */
  lemma ContainsCentre(c: Circle)
    requires c.radius > 0.0
    ensures Contains(c, c.center)
    ensures forall p :: DistanceSquared(c.center, p) == c.radius * c.radius ==> !Contains(c, p)
  {
    calc {
      DistanceSquared(c.center, c.center);
    ==
      0.0;
    <  { MulLt(0.0, c.radius, c.radius); }
      c.radius * c.radius;
    }
  }
}

=== FILE: lidar.dfy ===
/** The lidar sensor: 31 rays fanned across the forward direction, each
    reporting the rounded range to the nearest circle it meets, or 0 when it
    meets nothing within range or starts inside a circle. */
module Lidar {
  import opened Numbers
  import opened Geometry

  const LIDAR_MAX_DISTANCE: int := 255
  const LIDAR_RAY_COUNT: nat := 31

  /** A circle in the vehicle frame: forward offset, lateral offset, radius
      (the source's 3-tuples). */
  datatype RelativeCircle = RelativeCircle(x: real, y: real, r: real)

  /** The line of one ray, a*x + b*y = 0, with a = sin(angle) and
      b = -cos(angle) supplied by the caller. */
  datatype Ray = Ray(a: real, b: real)

  /** The source's rays are within 15 degrees of forward, so cos(angle) is
      never 0; that is all the model needs of them. */
  predicate ValidRay(ray: Ray) { ray.b != 0.0 }

  /** The square root used for the ranges. Only its sign matters to the
      properties proved here. */
  ghost predicate NonNegativeRoot(sqrt: real -> real) {
    forall s: real :: 0.0 <= s ==> 0.0 <= sqrt(s)
  }

  // ---------------------------------------------------------------------------
  // cast_lidar's candidate list (zip_sim.py:302-306)

  /** One object moved into the vehicle frame; the lateral offset is brought
      into [-WORLD_WIDTH/2, WORLD_WIDTH/2), the forward one is not wrapped. */
  function ToVehicleFrame(start: Vec, o: Circle): (c: RelativeCircle)
    ensures -WORLD_WIDTH_HALF <= c.y < WORLD_WIDTH_HALF
    ensures c.r == o.radius
  {
    RelativeCircle(o.center.x - start.x,
                   Wrap(o.center.y - start.y + WORLD_WIDTH_HALF, WORLD_WIDTH) - WORLD_WIDTH_HALF,
                   o.radius)
  }

  /** The objects strictly ahead of the vehicle (larger x), in order, in the
      vehicle frame. */
  function Candidates(start: Vec, objects: seq<Circle>): (rel: seq<RelativeCircle>)
    ensures |rel| <= |objects|
    ensures forall c :: c in rel ==> 0.0 < c.x && -WORLD_WIDTH_HALF <= c.y < WORLD_WIDTH_HALF
    ensures forall o :: o in objects && o.center.x > start.x ==> ToVehicleFrame(start, o) in rel
    ensures forall c :: c in rel ==> exists o :: o in objects && o.center.x > start.x && c == ToVehicleFrame(start, o)
  {
    if objects == [] then []
    else
      var rest := Candidates(start, objects[1..]);
      assert forall o :: o in objects[1..] ==> o in objects;
      if objects[0].center.x > start.x then [ToVehicleFrame(start, objects[0])] + rest else rest
  }

  // ---------------------------------------------------------------------------
  // One ray (zip_sim.py:269-299), as a specification

  /** The sensor starts inside (or on) this circle. */
  predicate OriginInside(c: RelativeCircle) {
    c.x * c.x + c.y * c.y <= c.r * c.r
  }

  /** Signed offset of the circle's centre from the ray's line. */
  function SignedOffset(ray: Ray, c: RelativeCircle): real {
    -(ray.a * c.x + ray.b * c.y)
  }

  /** The number of world widths to shift the circle by so that its periodic
      image nearest the line is the one tested. */
  function NumWraps(ray: Ray, c: RelativeCircle): int
    requires ValidRay(ray)
  {
    Round(SignedOffset(ray, c) / (ray.b * WORLD_WIDTH))
  }

  function ShiftedOffset(ray: Ray, c: RelativeCircle): real
    requires ValidRay(ray)
  {
    SignedOffset(ray, c) - NumWraps(ray, c) as real * ray.b * WORLD_WIDTH
  }

  /** The ray's line passes strictly within the radius of the (shifted) circle. */
  predicate Hits(ray: Ray, c: RelativeCircle)
    requires ValidRay(ray)
  {
    Abs(ShiftedOffset(ray, c)) < c.r
  }

  /** sqrt(x*x + y*y) with the supplied root. */
  function Hypot(x: real, y: real, sqrt: real -> real): (d: real)
    ensures NonNegativeRoot(sqrt) ==> 0.0 <= d
  {
    SquaresNonNegative(x, y);
    sqrt(x * x + y * y)
  }

  lemma SquaresNonNegative(x: real, y: real)
    ensures 0.0 <= x * x + y * y
  {
    assert 0.0 <= x * x;
    assert 0.0 <= y * y;
  }

  /** Distance from the sensor to the near intersection point. */
  function HitDistance(ray: Ray, c: RelativeCircle, sqrt: real -> real): (d: real)
    requires ValidRay(ray)
    ensures NonNegativeRoot(sqrt) ==> 0.0 <= d
  {
    var sc := ShiftedOffset(ray, c);
    var n := NumWraps(ray, c);
    var chord := sqrt(c.r * c.r - sc * sc);
    var x := ray.a * sc + ray.b * chord + c.x;
    var y := ray.b * sc - ray.a * chord + c.y + n as real * WORLD_WIDTH;
    Hypot(x, y, sqrt)
  }

  /** The running range after looking at one more circle: a nearer hit
      replaces it by its own rounded distance. */
  function NextRange(ray: Ray, c: RelativeCircle, sqrt: real -> real, range: int): int
    requires ValidRay(ray)
  {
    if Hits(ray, c) && HitDistance(ray, c, sqrt) < range as real
    then Round(HitDistance(ray, c, sqrt))
    else range
  }

  lemma NextRangeBounds(ray: Ray, c: RelativeCircle, sqrt: real -> real, range: int)
    requires ValidRay(ray) && NonNegativeRoot(sqrt) && 0 <= range
    ensures 0 <= NextRange(ray, c, sqrt, range) <= range
  {
    if Hits(ray, c) && HitDistance(ray, c, sqrt) < range as real {
      RoundWithin(HitDistance(ray, c, sqrt), 0, range);
    }
  }

  /** The running range after looking at every circle, in order. */
  function NearestRange(ray: Ray, cs: seq<RelativeCircle>, sqrt: real -> real, range: int): int
    requires ValidRay(ray)
    decreases |cs|
  {
    if cs == [] then range
    else NearestRange(ray, cs[1..], sqrt, NextRange(ray, cs[0], sqrt, range))
  }

  predicate Blind(cs: seq<RelativeCircle>) {
    exists c :: c in cs && OriginInside(c)
  }

  /** What one ray reports. */
  function RayReading(ray: Ray, cs: seq<RelativeCircle>, sqrt: real -> real): int
    requires ValidRay(ray)
  {
    if Blind(cs) then 0
    else
      var range := NearestRange(ray, cs, sqrt, LIDAR_MAX_DISTANCE + 1);
      if range <= LIDAR_MAX_DISTANCE then range else 0
  }

  /** The running range never grows and never becomes negative. */
  lemma {:induction false} NearestRangeBounds(ray: Ray, cs: seq<RelativeCircle>, sqrt: real -> real, range: int)
    requires ValidRay(ray) && NonNegativeRoot(sqrt) && 0 <= range
    ensures 0 <= NearestRange(ray, cs, sqrt, range) <= range
  {
    if cs != [] {
      NextRangeBounds(ray, cs[0], sqrt, range);
      NearestRangeBounds(ray, cs[1..], sqrt, NextRange(ray, cs[0], sqrt, range));
    }
  }

  /** A ray that meets no circle keeps its initial range. */
  lemma {:induction false} NearestRangeNoHit(ray: Ray, cs: seq<RelativeCircle>, sqrt: real -> real, range: int)
    requires ValidRay(ray)
    requires forall c :: c in cs ==> !Hits(ray, c)
    ensures NearestRange(ray, cs, sqrt, range) == range
  {
    if cs != [] {
      assert cs[0] in cs;
      assert forall c :: c in cs[1..] ==> c in cs;
      NearestRangeNoHit(ray, cs[1..], sqrt, range);
    }
  }

  /** The running range never grows, whatever the square root returns. */
  lemma {:induction false} NearestRangeAtMost(ray: Ray, cs: seq<RelativeCircle>, sqrt: real -> real, range: int)
    requires ValidRay(ray)
    ensures NearestRange(ray, cs, sqrt, range) <= range
  {
    if cs != [] {
      RoundAgainstInt(HitDistance(ray, cs[0], sqrt), range);
      NearestRangeAtMost(ray, cs[1..], sqrt, NextRange(ray, cs[0], sqrt, range));
    }
  }

  /** The running range ends at most at the rounded distance of every
      circle the ray hits: the order of the circles does not matter. */
  lemma {:induction false} NearestRangeMinimal(ray: Ray, cs: seq<RelativeCircle>, sqrt: real -> real, range: int, c: RelativeCircle)
    requires ValidRay(ray) && c in cs && Hits(ray, c)
    ensures NearestRange(ray, cs, sqrt, range) <= Round(HitDistance(ray, c, sqrt))
  {
    var next := NextRange(ray, cs[0], sqrt, range);
    if c == cs[0] {
      RoundAgainstInt(HitDistance(ray, c, sqrt), range);
      NearestRangeAtMost(ray, cs[1..], sqrt, next);
    } else {
      NearestRangeMinimal(ray, cs[1..], sqrt, next, c);
    }
  }

  /** The running range ends at its initial value or at the rounded
      distance of some circle the ray hits. */
  lemma {:induction false} NearestRangeAttained(ray: Ray, cs: seq<RelativeCircle>, sqrt: real -> real, range: int)
    requires ValidRay(ray)
    ensures var n := NearestRange(ray, cs, sqrt, range);
      n == range || exists c :: c in cs && Hits(ray, c) && n == Round(HitDistance(ray, c, sqrt))
  {
    if cs != [] {
      var next := NextRange(ray, cs[0], sqrt, range);
      NearestRangeAttained(ray, cs[1..], sqrt, next);
      var n := NearestRange(ray, cs, sqrt, range);
      if n != range && n == next {
        assert cs[0] in cs && Hits(ray, cs[0]) && n == Round(HitDistance(ray, cs[0], sqrt));
      } else if n != next {
        var c :| c in cs[1..] && Hits(ray, c) && n == Round(HitDistance(ray, c, sqrt));
        assert c in cs;
      }
    }
  }

  /** Unless the sensor is blind, a non-zero reading is the rounded distance
      of a circle the ray hits, no hit within range reads nearer, and a hit
      within range is always reported: the reading is the nearest hit. */
  lemma RayReadingNearest(ray: Ray, cs: seq<RelativeCircle>, sqrt: real -> real)
    requires ValidRay(ray) && !Blind(cs)
    ensures RayReading(ray, cs, sqrt) == 0
         || exists c :: c in cs && Hits(ray, c) && RayReading(ray, cs, sqrt) == Round(HitDistance(ray, c, sqrt))
    ensures forall c :: c in cs && Hits(ray, c) && Round(HitDistance(ray, c, sqrt)) <= LIDAR_MAX_DISTANCE ==>
      RayReading(ray, cs, sqrt) <= Round(HitDistance(ray, c, sqrt))
    ensures (exists c :: c in cs && Hits(ray, c) && Round(HitDistance(ray, c, sqrt)) <= LIDAR_MAX_DISTANCE) ==>
      exists c :: c in cs && Hits(ray, c) && RayReading(ray, cs, sqrt) == Round(HitDistance(ray, c, sqrt))
  {
    NearestRangeAttained(ray, cs, sqrt, LIDAR_MAX_DISTANCE + 1);
    if c :| c in cs && Hits(ray, c) && Round(HitDistance(ray, c, sqrt)) <= LIDAR_MAX_DISTANCE {
      NearestRangeMinimal(ray, cs, sqrt, LIDAR_MAX_DISTANCE + 1, c);
    }
    forall c | c in cs && Hits(ray, c) && Round(HitDistance(ray, c, sqrt)) <= LIDAR_MAX_DISTANCE
      ensures RayReading(ray, cs, sqrt) <= Round(HitDistance(ray, c, sqrt))
    {
      NearestRangeMinimal(ray, cs, sqrt, LIDAR_MAX_DISTANCE + 1, c);
    }
  }

  /** Every reading is a valid u8 range: 0 (nothing, or blind) up to 255. */
  lemma RayReadingBounds(ray: Ray, cs: seq<RelativeCircle>, sqrt: real -> real)
    requires ValidRay(ray) && NonNegativeRoot(sqrt)
    ensures 0 <= RayReading(ray, cs, sqrt) <= LIDAR_MAX_DISTANCE
  {
    NearestRangeBounds(ray, cs, sqrt, LIDAR_MAX_DISTANCE + 1);
  }

  /** A ray that meets no candidate reads 0, and so does a ray whose origin
      lies inside any candidate. */
  lemma RayReadingZero(ray: Ray, cs: seq<RelativeCircle>, sqrt: real -> real)
    requires ValidRay(ray)
    requires (forall c :: c in cs ==> !Hits(ray, c)) || Blind(cs)
    ensures RayReading(ray, cs, sqrt) == 0
  {
    if !Blind(cs) {
      NearestRangeNoHit(ray, cs, sqrt, LIDAR_MAX_DISTANCE + 1);
    }
  }

  // ---------------------------------------------------------------------------
  // The implementation: cast_lidar_ray's loop and cast_lidar's fan of rays

  /** cast_lidar_ray: scan the circles in order, returning 0 at once if the
      sensor is inside one, otherwise keeping the nearest rounded hit. */
  method CastRay(ray: Ray, circles: seq<RelativeCircle>, sqrt: real -> real) returns (range: int)
    requires ValidRay(ray) && NonNegativeRoot(sqrt)
    ensures range == RayReading(ray, circles, sqrt)
    ensures 0 <= range <= LIDAR_MAX_DISTANCE
    ensures Blind(circles) ==> range == 0
  {
    var distance := LIDAR_MAX_DISTANCE + 1;
    for i := 0 to |circles|
      invariant forall k :: 0 <= k < i ==> !OriginInside(circles[k])
      invariant 0 <= distance <= LIDAR_MAX_DISTANCE + 1
      invariant NearestRange(ray, circles[i..], sqrt, distance)
             == NearestRange(ray, circles, sqrt, LIDAR_MAX_DISTANCE + 1)
    {
      var o := circles[i];
      if OriginInside(o) {
        range := 0;
        RayReadingBounds(ray, circles, sqrt);
        return;
      }
      NextRangeBounds(ray, o, sqrt, distance);
      distance := NextRange(ray, o, sqrt, distance);
      assert circles[i..][1..] == circles[i + 1..];
    }
    assert !Blind(circles) by {
      forall c | c in circles ensures !OriginInside(c) {
        var k :| 0 <= k < |circles| && circles[k] == c;
      }
    }
    range := if distance <= LIDAR_MAX_DISTANCE then distance else 0;
  }

  /** cast_lidar: the candidates ahead of the vehicle, then one reading per
      ray, in the rays' order. */
  method CastLidar(start: Vec, objects: seq<Circle>, rays: seq<Ray>, sqrt: real -> real) returns (samples: seq<int>)
    requires |rays| == LIDAR_RAY_COUNT && forall r :: r in rays ==> ValidRay(r)
    requires NonNegativeRoot(sqrt)
    ensures |samples| == LIDAR_RAY_COUNT
    ensures forall k :: 0 <= k < |samples| ==> 0 <= samples[k] <= LIDAR_MAX_DISTANCE
    ensures forall k :: 0 <= k < |samples| ==> samples[k] == RayReading(rays[k], Candidates(start, objects), sqrt)
  {
    var candidates := Candidates(start, objects);
    samples := [];
    for k := 0 to |rays|
      invariant |samples| == k
      invariant forall j :: 0 <= j < k ==> 0 <= samples[j] <= LIDAR_MAX_DISTANCE
      invariant forall j :: 0 <= j < k ==> samples[j] == RayReading(rays[j], candidates, sqrt)
    {
      assert rays[k] in rays;
      var s := CastRay(rays[k], candidates, sqrt);
      samples := samples + [s];
    }
  }

  /** With the sensor inside one candidate, every ray reads 0; with no
      candidate at all, every ray reads 0 too. */
  lemma AllRaysZero(start: Vec, objects: seq<Circle>, rays: seq<Ray>, sqrt: real -> real, samples: seq<int>)
    requires forall r :: r in rays ==> ValidRay(r)
    requires |samples| == |rays|
    requires forall k :: 0 <= k < |samples| ==> samples[k] == RayReading(rays[k], Candidates(start, objects), sqrt)
    requires Blind(Candidates(start, objects)) || forall o :: o in objects ==> o.center.x <= start.x
    ensures forall k :: 0 <= k < |samples| ==> samples[k] == 0
  {
    var cs := Candidates(start, objects);
    forall k | 0 <= k < |samples| ensures samples[k] == 0 {
      assert rays[k] in rays;
      RayReadingZero(rays[k], cs, sqrt);
    }
  }
}

=== FILE: numbers.dfy ===
/** Scalar helpers shared by the simulator model: the clamps written with
    Python's min/max, and Python's built-in round() on a real argument. */
module Numbers {

  function Min(a: real, b: real): real { if a <= b then a else b }

  function Max(a: real, b: real): real { if a >= b then a else b }

  /** max(lo, min(hi, x)): the form used for the lateral airspeed command
      (zip_sim.py:409) and the wind speed (zip_sim.py:250). */
  function Clamp(x: real, lo: real, hi: real): (r: real)
    requires lo <= hi
    ensures lo <= r <= hi
    ensures lo <= x <= hi ==> r == x
    ensures x < lo ==> r == lo
    ensures x > hi ==> r == hi
  {
    Max(lo, Min(hi, x))
  }

  function Abs(x: real): (r: real)
    ensures r >= 0.0 && (r == x || r == -x)
  {
    if x < 0.0 then -x else x
  }

  /** Python's round() with one argument: the nearest integer, and the even
      one of the two when the argument lies exactly half-way between. */
  function Round(x: real): (r: int)
    ensures r as real - 0.5 <= x <= r as real + 0.5
    ensures (x == r as real - 0.5 || x == r as real + 0.5) ==> r % 2 == 0
  {
    var f := x.Floor;
    var frac := x - f as real;
    if frac < 0.5 then f
    else if frac > 0.5 then f + 1
    else if f % 2 == 0 then f
    else f + 1
  }

  /** Rounding never crosses an integer: below n stays at most n, and from n
      up stays at least n. */
  lemma RoundAgainstInt(x: real, n: int)
    ensures x < n as real ==> Round(x) <= n
    ensures n as real <= x ==> n <= Round(x)
  {
    var r := Round(x);
    assert r as real - 0.5 <= x <= r as real + 0.5;
  }

  /** Rounding a value that lies between two integers lands between them:
      this is what lets the telemetry fields fit their integer widths. */
  lemma RoundWithin(x: real, lo: int, hi: int)
    requires lo as real <= x <= hi as real
    ensures lo <= Round(x) <= hi
  {
    var r := Round(x);
    assert r as real >= x - 0.5 >= lo as real - 0.5;
    assert r as real <= x + 0.5 <= hi as real + 0.5;
  }
}

=== FILE: protocol.dfy ===
/** The pilot protocol: each tick the simulator writes one 44-byte telemetry
    frame (struct format ">Hhffb31B") and reads one 8-byte command frame
    (">fB3s"). Integers are big-endian; each f32 is carried as 4 bytes whose
    IEEE-754 meaning is not modelled. */
module Protocol {
  import opened Numbers
  import opened Geometry
  import opened Wrappers
  import opened Entities
  import opened Lidar

  newtype byte = x: int | 0 <= x < 256

  const TELEMETRY_SIZE: nat := 44
  const COMMAND_SIZE: nat := 8
  const F32_SIZE: nat := 4

  // ---------------------------------------------------------------------------
  // Big-endian integer fields

  function U16Bytes(v: int): (b: seq<byte>)
    requires 0 <= v < 0x1_0000
    ensures |b| == 2
  {
    [(v / 256) as byte, (v % 256) as byte]
  }

  function U16Value(hi: byte, lo: byte): (v: int)
    ensures 0 <= v < 0x1_0000
  {
    hi as int * 256 + lo as int
  }

  /** Two's complement, 16 bits. */
  function I16Bytes(v: int): (b: seq<byte>)
    requires -0x8000 <= v < 0x8000
    ensures |b| == 2
  {
    U16Bytes(v % 0x1_0000)
  }

  function I16Value(hi: byte, lo: byte): (v: int)
    ensures -0x8000 <= v < 0x8000
  {
    var u := U16Value(hi, lo);
    if u >= 0x8000 then u - 0x1_0000 else u
  }

  /** Two's complement, 8 bits. */
  function I8Byte(v: int): byte
    requires -0x80 <= v < 0x80
  {
    (v % 256) as byte
  }

  function I8Value(b: byte): (v: int)
    ensures -0x80 <= v < 0x80
  {
    if b >= 0x80 then b as int - 256 else b as int
  }

  lemma U16RoundTrip(v: int)
    requires 0 <= v < 0x1_0000
    ensures U16Value(U16Bytes(v)[0], U16Bytes(v)[1]) == v
  {}

  lemma I16RoundTrip(v: int)
    requires -0x8000 <= v < 0x8000
    ensures I16Value(I16Bytes(v)[0], I16Bytes(v)[1]) == v
  {
    U16RoundTrip(v % 0x1_0000);
  }

  lemma I8RoundTrip(v: int)
    requires -0x80 <= v < 0x80
    ensures I8Value(I8Byte(v)) == v
  {}

  lemma U16BytesRoundTrip(hi: byte, lo: byte)
    ensures U16Bytes(U16Value(hi, lo)) == [hi, lo]
  {}

  lemma I16BytesRoundTrip(hi: byte, lo: byte)
    ensures I16Bytes(I16Value(hi, lo)) == [hi, lo]
  {
    U16BytesRoundTrip(hi, lo);
  }

  lemma I8ByteRoundTrip(b: byte)
    ensures I8Byte(I8Value(b)) == b
  {}

  // ---------------------------------------------------------------------------
  // Telemetry frame (zip_sim.py:85-92, 395-401)

  datatype Telemetry = Telemetry(
    timestampMs: int,
    recoveryXError: int,
    windX: seq<byte>,
    windY: seq<byte>,
    recoveryYError: int,
    lidar: seq<int>)

  /** Every field fits its slot of ">Hhffb31B"; struct.pack raises otherwise. */
  ghost predicate Packable(t: Telemetry) {
    && 0 <= t.timestampMs < 0x1_0000
    && -0x8000 <= t.recoveryXError < 0x8000
    && |t.windX| == F32_SIZE && |t.windY| == F32_SIZE
    && -0x80 <= t.recoveryYError < 0x80
    && |t.lidar| == LIDAR_RAY_COUNT
    && forall k :: 0 <= k < |t.lidar| ==> 0 <= t.lidar[k] < 256
  }

  function EncodeTelemetry(t: Telemetry): (frame: seq<byte>)
    requires Packable(t)
    ensures |frame| == TELEMETRY_SIZE
  {
    U16Bytes(t.timestampMs) + I16Bytes(t.recoveryXError) + t.windX + t.windY
      + [I8Byte(t.recoveryYError)]
      + seq(LIDAR_RAY_COUNT, k requires 0 <= k < LIDAR_RAY_COUNT => t.lidar[k] as byte)
  }

  /** What the pilot unpacks from a frame. */
  function DecodeTelemetry(frame: seq<byte>): Option<Telemetry> {
    if |frame| != TELEMETRY_SIZE then None
    else Some(Telemetry(
      U16Value(frame[0], frame[1]),
      I16Value(frame[2], frame[3]),
      frame[4..8],
      frame[8..12],
      I8Value(frame[12]),
      seq(LIDAR_RAY_COUNT, k requires 0 <= k < LIDAR_RAY_COUNT => frame[13 + k] as int)))
  }

  /** The pilot reads back exactly the fields the simulator packed. */
  lemma TelemetryRoundTrip(t: Telemetry)
    requires Packable(t)
    ensures DecodeTelemetry(EncodeTelemetry(t)) == Some(t)
  {
    var frame := EncodeTelemetry(t);
    U16RoundTrip(t.timestampMs);
    I16RoundTrip(t.recoveryXError);
    I8RoundTrip(t.recoveryYError);
    assert frame[0..2] == U16Bytes(t.timestampMs);
    assert frame[2..4] == I16Bytes(t.recoveryXError);
    assert frame[4..8] == t.windX;
    assert frame[8..12] == t.windY;
    assert frame[12] == I8Byte(t.recoveryYError);
    var lidar := seq(LIDAR_RAY_COUNT, k requires 0 <= k < LIDAR_RAY_COUNT => frame[13 + k] as int);
    assert lidar == t.lidar;
  }

  /** Every 44-byte frame is the packing of what the pilot unpacks from it:
      so a frame is determined by its decoding. */
  lemma TelemetryFrameRoundTrip(frame: seq<byte>)
    requires |frame| == TELEMETRY_SIZE
    ensures Packable(DecodeTelemetry(frame).value)
    ensures EncodeTelemetry(DecodeTelemetry(frame).value) == frame
  {
    var t := DecodeTelemetry(frame).value;
    U16BytesRoundTrip(frame[0], frame[1]);
    I16BytesRoundTrip(frame[2], frame[3]);
    I8ByteRoundTrip(frame[12]);
    var lidar := seq(LIDAR_RAY_COUNT, k requires 0 <= k < LIDAR_RAY_COUNT => t.lidar[k] as byte);
    assert lidar == frame[13..];
    assert frame == frame[0..2] + frame[2..4] + frame[4..8] + frame[8..12] + [frame[12]] + frame[13..];
  }

  /** int(loop_count * DT_SEC * 1e3) & 0xFFFF: milliseconds since the start,
      truncated to 16 bits. */
  function TimestampMs(loopCount: nat): (ms: int)
    ensures 0 <= ms < 0x1_0000
  {
    (loopCount as real * DT_SEC * 1000.0).Floor % 0x1_0000
  }

  /** Distance still to fly to the recovery line, rounded. */
  function RecoveryXError(position: Vec): int {
    Round(RECOVERY_X - position.x)
  }

  /** The lateral offset to the seam y = 0, taken the short way round and
      rounded; the pilot steers it to 0. */
  function RecoveryYError(position: Vec): int {
    Round(Wrap(-position.y + WORLD_WIDTH_HALF, WORLD_WIDTH) - WORLD_WIDTH_HALF)
  }

  function MakeTelemetry(loopCount: nat, position: Vec, windX: seq<byte>, windY: seq<byte>, lidar: seq<int>): Telemetry {
    Telemetry(TimestampMs(loopCount), RecoveryXError(position), windX, windY, RecoveryYError(position), lidar)
  }

  /** For any position in the world and any lidar scan, every field fits its
      slot: the recovery x error lies in [-5, 1995], the y error in [-25, 25]. */
  lemma TelemetryFits(loopCount: nat, position: Vec, windX: seq<byte>, windY: seq<byte>, lidar: seq<int>)
    requires InWorld(position)
    requires |windX| == F32_SIZE && |windY| == F32_SIZE
    requires |lidar| == LIDAR_RAY_COUNT
    requires forall k :: 0 <= k < |lidar| ==> 0 <= lidar[k] <= LIDAR_MAX_DISTANCE
    ensures Packable(MakeTelemetry(loopCount, position, windX, windY, lidar))
    ensures -5 <= RecoveryXError(position) <= 1995
    ensures -25 <= RecoveryYError(position) <= 25
  {
    RoundWithin(RECOVERY_X - position.x, -5, 1995);
    var w := Wrap(-position.y + WORLD_WIDTH_HALF, WORLD_WIDTH) - WORLD_WIDTH_HALF;
    RoundWithin(w, -25, 25);
  }

  // ---------------------------------------------------------------------------
  // Command frame (zip_sim.py:93, 404-410)

  datatype CommandFrame = CommandFrame(lateralAirspeed: seq<byte>, dropPackage: byte, reserved: seq<byte>)

  ghost predicate WellFormedCommand(c: CommandFrame) {
    |c.lateralAirspeed| == F32_SIZE && |c.reserved| == 3
  }

  function EncodeCommand(c: CommandFrame): (frame: seq<byte>)
    requires WellFormedCommand(c)
    ensures |frame| == COMMAND_SIZE
  {
    c.lateralAirspeed + [c.dropPackage] + c.reserved
  }

  /** COMMAND_STRUCT.unpack on what was read: anything but exactly 8 bytes is
      a failed read. */
  function DecodeCommand(frame: seq<byte>): (c: Option<CommandFrame>)
    ensures c.Some? <==> |frame| == COMMAND_SIZE
    ensures c.Some? ==> WellFormedCommand(c.value)
  {
    if |frame| != COMMAND_SIZE then None
    else Some(CommandFrame(frame[0..4], frame[4], frame[5..8]))
  }

  lemma CommandRoundTrip(c: CommandFrame)
    requires WellFormedCommand(c)
    ensures DecodeCommand(EncodeCommand(c)) == Some(c)
  {
    var frame := EncodeCommand(c);
    assert frame[0..4] == c.lateralAirspeed;
    assert frame[5..8] == c.reserved;
  }

  lemma CommandFrameRoundTrip(frame: seq<byte>)
    requires |frame| == COMMAND_SIZE
    ensures EncodeCommand(DecodeCommand(frame).value) == frame
  {
    assert frame == frame[0..4] + [frame[4]] + frame[5..8];
  }

  /** The interpreted command: the lateral airspeed (decoded from its f32 by
      the supplied function) and whether the drop byte is non-zero. The
      reserved bytes play no part. */
  datatype Command = Command(lateralAirspeed: real, dropCommanded: bool)

  function Interpret(c: CommandFrame, f32: seq<byte> -> real): (cmd: Command)
    ensures cmd.dropCommanded <==> c.dropPackage != 0
  {
    Command(f32(c.lateralAirspeed), c.dropPackage != 0)
  }

  /** What an 8-byte reply commands is read from its first five bytes only:
      a drop iff byte 4 is non-zero, and the same command from any two
      replies that agree on those bytes. */
  lemma ReplyCommand(reply: seq<byte>, other: seq<byte>, f32: seq<byte> -> real)
    requires |reply| == COMMAND_SIZE && |other| == COMMAND_SIZE
    ensures Interpret(DecodeCommand(reply).value, f32).dropCommanded <==> reply[4] != 0
    ensures reply[..5] == other[..5] ==>
      Interpret(DecodeCommand(reply).value, f32) == Interpret(DecodeCommand(other).value, f32)
  {
    if reply[..5] == other[..5] {
      assert reply[0..4] == reply[..5][0..4] == other[..5][0..4] == other[0..4];
      assert reply[4] == reply[..5][4] == other[4];
    }
  }

  lemma ReservedIgnored(c: CommandFrame, reserved: seq<byte>, f32: seq<byte> -> real)
    ensures Interpret(c, f32) == Interpret(c.(reserved := reserved), f32)
  {}
}

=== FILE: scoring.dfy ===
/** End-of-run scoring: how many packages came to rest inside each delivery
    site, how many sites were served ("deliveries"), and how many packages
    were redundant drops into an already-served site ("violations"). Sites
    are identified by their index in the site list. */
module Scoring {
  import opened Geometry

  /** How many of the positions the site contains. */
  function CountIn(site: Circle, positions: seq<Vec>): (n: nat)
    ensures n <= |positions|
    decreases |positions|
  {
    if positions == [] then 0
    else
      var last := positions[|positions| - 1];
      CountIn(site, positions[..|positions| - 1]) + (if Contains(site, last) then 1 else 0)
  }

  /** package_count_by_site: a key for every site holding at least one
      package, mapped to the number it holds. */
  function SiteCounts(sites: seq<Circle>, positions: seq<Vec>): map<nat, nat> {
    map i: nat | i < |sites| && CountIn(sites[i], positions) > 0 :: CountIn(sites[i], positions)
  }

  /** Sum of (count - 1) over the sites below n holding more than one package. */
  function Excess(counts: map<nat, nat>, n: nat): nat {
    if n == 0 then 0
    else Excess(counts, n - 1) + (if n - 1 in counts && counts[n - 1] > 1 then counts[n - 1] - 1 else 0)
  }

  /** Number of sites below n that have a key. */
  function Served(counts: map<nat, nat>, n: nat): nat {
    if n == 0 then 0
    else Served(counts, n - 1) + (if n - 1 in counts then 1 else 0)
  }

  /** Every (package, site) pair where the site contains the package, over
      the sites below n. */
  function Matches(sites: seq<Circle>, positions: seq<Vec>, n: nat): nat
    requires n <= |sites|
  {
    if n == 0 then 0
    else Matches(sites, positions, n - 1) + CountIn(sites[n - 1], positions)
  }

  /** The number of violations the source prints. */
  function Violations(sites: seq<Circle>, positions: seq<Vec>): nat {
    Excess(SiteCounts(sites, positions), |sites|)
  }

  // ---------------------------------------------------------------------------
  // Properties

  lemma {:induction false} ServedCountsKeys(counts: map<nat, nat>, n: nat)
    ensures Served(counts, n) == |set k | k in counts && k < n|
  {
    if n == 0 {
      assert (set k | k in counts && k < 0) == {};
    } else {
      ServedCountsKeys(counts, n - 1);
      var below := set k | k in counts && k < n - 1;
      if n - 1 in counts {
        assert (set k | k in counts && k < n) == below + {n - 1};
      } else {
        assert (set k | k in counts && k < n) == below;
      }
    }
  }

  lemma {:induction false} ServedAtMost(counts: map<nat, nat>, n: nat)
    ensures Served(counts, n) <= n
  {
    if n > 0 {
      ServedAtMost(counts, n - 1);
    }
  }

  /** Deliveries is the number of sites holding a package, and never exceeds
      the number of sites. */
  lemma Deliveries(sites: seq<Circle>, positions: seq<Vec>)
    ensures SiteCounts(sites, positions).Keys == set i: nat | i < |sites| && CountIn(sites[i], positions) >= 1
    ensures |SiteCounts(sites, positions)| == Served(SiteCounts(sites, positions), |sites|)
    ensures |SiteCounts(sites, positions)| <= |sites|
  {
    var counts := SiteCounts(sites, positions);
    ServedCountsKeys(counts, |sites|);
    assert (set k | k in counts && k < |sites|) == counts.Keys;
    ServedAtMost(counts, |sites|);
  }

  lemma {:induction false} ExcessPlusServed(sites: seq<Circle>, positions: seq<Vec>, n: nat)
    requires n <= |sites|
    ensures Excess(SiteCounts(sites, positions), n) + Served(SiteCounts(sites, positions), n)
         == Matches(sites, positions, n)
  {
    if n > 0 {
      ExcessPlusServed(sites, positions, n - 1);
    }
  }

  /** Violations plus deliveries is the total number of package-in-site
      matches: each served site contributes one delivery and count - 1
      violations. */
  lemma ViolationsIdentity(sites: seq<Circle>, positions: seq<Vec>)
    ensures Violations(sites, positions) + |SiteCounts(sites, positions)| == Matches(sites, positions, |sites|)
  {
    ExcessPlusServed(sites, positions, |sites|);
    Deliveries(sites, positions);
  }

  lemma {:induction false} ExcessZero(sites: seq<Circle>, positions: seq<Vec>, n: nat)
    requires n <= |sites|
    ensures Excess(SiteCounts(sites, positions), n) == 0
        <==> forall i :: 0 <= i < n ==> CountIn(sites[i], positions) <= 1
  {
    if n > 0 {
      ExcessZero(sites, positions, n - 1);
    }
  }

  /** There are no violations exactly when no site holds two packages. */
  lemma NoViolationsIff(sites: seq<Circle>, positions: seq<Vec>)
    ensures Violations(sites, positions) == 0
        <==> forall i :: 0 <= i < |sites| ==> CountIn(sites[i], positions) <= 1
  {
    ExcessZero(sites, positions, |sites|);
  }

  // ---------------------------------------------------------------------------
  // The counting loop (zip_sim.py:518-527)

  /** For every package, for every site containing it, add one to that
      site's count (creating the key on first use). */
  method CountPackagesBySite(positions: seq<Vec>, sites: seq<Circle>) returns (counts: map<nat, nat>)
    ensures counts == SiteCounts(sites, positions)
  {
    counts := map[];
    for k := 0 to |positions|
      invariant counts == SiteCounts(sites, positions[..k])
    {
      ghost var before := positions[..k];
      ghost var after := positions[..k + 1];
      assert after[..k] == before;
      for i := 0 to |sites|
        invariant forall j :: j in counts ==> j < |sites|
        invariant forall j: nat :: j < i ==>
          (j in counts <==> CountIn(sites[j], after) > 0) && (j in counts ==> counts[j] == CountIn(sites[j], after))
        invariant forall j: nat :: i <= j < |sites| ==>
          (j in counts <==> CountIn(sites[j], before) > 0) && (j in counts ==> counts[j] == CountIn(sites[j], before))
      {
        if Contains(sites[i], positions[k]) {
          counts := counts[i := (if i in counts then counts[i] else 0) + 1];
        }
      }
      assert counts.Keys == SiteCounts(sites, after).Keys;
    }
    assert positions[..|positions|] == positions;
  }
}

=== FILE: simulation.dfy ===
/** The simulator's main loop in API mode: every tick it sends a telemetry
    frame, reads the pilot's command, moves the vehicle, checks for trees,
    advances the falling packages, releases a package on a new drop command,
    lets the wind drift and checks for the recovery line. At the end the
    packages are settled and the deliveries counted. */
module Simulation {
  import opened Numbers
  import opened Geometry
  import opened Wrappers
  import opened Entities
  import opened Lidar
  import opened Protocol
  import opened Scoring

  /** The results the simulator exits with (zip_sim.py:96-99). */
  datatype Outcome = Recovered | Paralanded | Crashed | Quit

  function ExitCode(o: Outcome): (code: int)
    ensures 0 <= code <= 3
    ensures o == Recovered <==> code == 0
  {
    match o
    case Recovered => 0
    case Paralanded => 1
    case Crashed => 2
    case Quit => 3
  }

  /** Past the recovery line, the vehicle is recovered when it is within the
      recovery band around y = 0, otherwise it lands by parachute. */
  function RecoveryOutcome(p: Vec): Outcome {
    if p.y <= RECOVERY_Y_MIN || p.y >= RECOVERY_Y_MAX then Recovered else Paralanded
  }

  /** The band is the set of points within 7.5 m of the line y = 0, measured
      the short way round the seam. */
  lemma RecoveredNearCentreline(p: Vec)
    requires InWorld(p)
    ensures RecoveryOutcome(p) == Recovered <==> WrappedDelta(p.y, 0.0, WORLD_WIDTH) <= 7.5
    ensures RecoveryOutcome(p) in {Recovered, Paralanded}
  {}

  // ---------------------------------------------------------------------------
  // Trees, sites and the lidar's objects

  ghost predicate HitsTree(trees: seq<Vec>, p: Vec) {
    exists i :: 0 <= i < |trees| && Contains(TreeCircle(trees[i]), p)
  }

  /** The collision loop: stop at the first tree whose collision circle
      contains the vehicle. */
  method CollidesWithTree(trees: seq<Vec>, p: Vec) returns (crashed: bool)
    ensures crashed <==> HitsTree(trees, p)
  {
    crashed := false;
    var i := 0;
    while i < |trees|
      invariant 0 <= i <= |trees|
      invariant forall k :: 0 <= k < i ==> !Contains(TreeCircle(trees[k]), p)
    {
      if Contains(TreeCircle(trees[i]), p) {
        crashed := true;
        return;
      }
      i := i + 1;
    }
  }

  function SiteCircles(sites: seq<Vec>): (cs: seq<Circle>)
    ensures |cs| == |sites|
    ensures forall k :: 0 <= k < |cs| ==> cs[k] == SiteCircle(sites[k])
  {
    seq(|sites|, k requires 0 <= k < |sites| => SiteCircle(sites[k]))
  }

  /** lidar_objects: the trees' lidar circles followed by the sites'. */
  function LidarObjects(trees: seq<Vec>, sites: seq<Vec>): (objects: seq<Circle>)
    ensures |objects| == |trees| + |sites|
    ensures forall k :: 0 <= k < |trees| ==> objects[k] == TreeLidarObject(trees[k])
    ensures forall k :: 0 <= k < |sites| ==> objects[|trees| + k] == SiteLidarObject(sites[k])
  {
    seq(|trees|, k requires 0 <= k < |trees| => TreeLidarObject(trees[k]))
      + seq(|sites|, k requires 0 <= k < |sites| => SiteLidarObject(sites[k]))
  }

  // ---------------------------------------------------------------------------
  // What the model takes from outside

  /** The fixed parts of the environment: the rays (sine and minus cosine of
      each of LIDAR_ANGLES), the square root, and the f32 conversions used by
      the two frames. */
  datatype Environment = Environment(
    rays: seq<Ray>,
    sqrt: real -> real,
    f32Decode: seq<byte> -> real,
    f32Encode: real -> seq<byte>)

  ghost predicate ValidEnvironment(env: Environment) {
    && |env.rays| == LIDAR_RAY_COUNT
    && (forall r :: r in env.rays ==> ValidRay(r))
    && NonNegativeRoot(env.sqrt)
    && (forall x: real :: |env.f32Encode(x)| == F32_SIZE)
  }

  /** The 31 readings taken from a position. */
  ghost function Scan(env: Environment, start: Vec, objects: seq<Circle>): seq<int>
    requires ValidEnvironment(env)
  {
    seq(LIDAR_RAY_COUNT, k requires 0 <= k < LIDAR_RAY_COUNT =>
      assert env.rays[k] in env.rays;
      RayReading(env.rays[k], Candidates(start, objects), env.sqrt))
  }

  /** The telemetry sent at the start of a tick. */
  ghost function TickTelemetry(env: Environment, loopCount: nat, position: Vec, wind: Vec, objects: seq<Circle>): Telemetry
    requires ValidEnvironment(env)
  {
    MakeTelemetry(loopCount, position, env.f32Encode(wind.x), env.f32Encode(wind.y), Scan(env, position, objects))
  }

  /** Every reading of a scan is a valid u8 range. */
  lemma ScanBounds(env: Environment, start: Vec, objects: seq<Circle>)
    requires ValidEnvironment(env)
    ensures |Scan(env, start, objects)| == LIDAR_RAY_COUNT
    ensures forall k :: 0 <= k < LIDAR_RAY_COUNT ==> 0 <= Scan(env, start, objects)[k] <= LIDAR_MAX_DISTANCE
  {
    forall k | 0 <= k < LIDAR_RAY_COUNT
      ensures 0 <= Scan(env, start, objects)[k] <= LIDAR_MAX_DISTANCE
    {
      assert env.rays[k] in env.rays;
      RayReadingBounds(env.rays[k], Candidates(start, objects), env.sqrt);
    }
  }

  /** From any position in the world, the tick's telemetry fits its frame. */
  lemma TickTelemetryPackable(env: Environment, loopCount: nat, position: Vec, wind: Vec, objects: seq<Circle>)
    requires ValidEnvironment(env) && InWorld(position)
    ensures Packable(TickTelemetry(env, loopCount, position, wind, objects))
  {
    ScanBounds(env, position, objects);
    TelemetryFits(loopCount, position, env.f32Encode(wind.x), env.f32Encode(wind.y), Scan(env, position, objects));
  }

  /** A package is released on the rising edge of the drop command, and only
      while one is left. */
  predicate Released(dropCommanded: bool, wasPackageDropped: bool, numPackages: nat) {
    dropCommanded && !wasPackageDropped && numPackages > 0
  }

  /** The packages released over a run of drop commands, starting from the
      given debounce flag with onBoard packages left. */
  function Releases(drops: seq<bool>, wasPackageDropped: bool, onBoard: nat): (n: nat)
    ensures n <= onBoard && n <= |drops|
    decreases |drops|
  {
    if drops == [] then 0
    else if Released(drops[0], wasPackageDropped, onBoard) then 1 + Releases(drops[1..], drops[0], onBoard - 1)
    else Releases(drops[1..], drops[0], onBoard)
  }

  /** The ticks on which the drop command goes from off to on. */
  function RisingEdges(drops: seq<bool>, wasPackageDropped: bool): nat
    decreases |drops|
  {
    if drops == [] then 0
    else (if drops[0] && !wasPackageDropped then 1 else 0) + RisingEdges(drops[1..], drops[0])
  }

  /** A package is released on each rising edge of the command until the
      vehicle runs out: holding the command down releases only one. */
  lemma {:induction false} ReleasesAreRisingEdges(drops: seq<bool>, wasPackageDropped: bool, onBoard: nat)
    ensures Releases(drops, wasPackageDropped, onBoard) == if RisingEdges(drops, wasPackageDropped) <= onBoard
                                                           then RisingEdges(drops, wasPackageDropped) else onBoard
    decreases |drops|
  {
    if drops != [] {
      if Released(drops[0], wasPackageDropped, onBoard) {
        ReleasesAreRisingEdges(drops[1..], drops[0], onBoard - 1);
      } else {
        ReleasesAreRisingEdges(drops[1..], drops[0], onBoard);
      }
    }
  }

  /** A command held on for any number of ticks has at most one rising edge. */
  lemma {:induction false} HeldCommandOneEdge(drops: seq<bool>, wasPackageDropped: bool)
    requires forall k :: 0 <= k < |drops| ==> drops[k]
    ensures RisingEdges(drops, wasPackageDropped) == if drops == [] || wasPackageDropped then 0 else 1
    decreases |drops|
  {
    if drops != [] {
      HeldCommandOneEdge(drops[1..], true);
    }
  }

  /** The part of the state that one tick changes and a run's trace
      records: the vehicle's position, the wind speed, the packages on board
      and the debounce flag. */
  datatype TickState = TickState(position: Vec, windSpeed: real, numPackages: nat, wasPackageDropped: bool)

  /** The packages' side of the state: how many are on board, the drop
      command's last value, and the released packages with their falls. */
  datatype CargoState = CargoState(numPackages: nat, wasPackageDropped: bool, packages: seq<Package>, falls: seq<Fall>)

  /** What one tick makes of that state, given the wind's heading and random
      step and the pilot's reply. A reply that is not a command crashes the
      vehicle where it is; otherwise the vehicle steps with the clamped
      lateral airspeed and the wind, a package is released on a rising edge
      of the drop command, and the wind speed takes its clamped step. */
  function NextState(env: Environment, s: TickState, heading: Vec, speedStep: real, reply: seq<byte>): TickState {
    if |reply| != COMMAND_SIZE then s
    else
      var cmd := Interpret(DecodeCommand(reply).value, env.f32Decode);
      StepState(s, cmd.lateralAirspeed, cmd.dropCommanded, heading, speedStep)
  }

  /** The same, once a command has been read. */
  function StepState(s: TickState, lateralAirspeedInput: real, dropCommanded: bool, heading: Vec, speedStep: real): TickState {
    TickState(
      VehicleStep(s.position, DT_SEC, Clamp(lateralAirspeedInput, -MAX_LATERAL_AIRSPEED, MAX_LATERAL_AIRSPEED),
                  heading.Scale(s.windSpeed)),
      Clamp(s.windSpeed + speedStep, 0.0, MAX_WINDSPEED_M_S),
      if Released(dropCommanded, s.wasPackageDropped, s.numPackages) then s.numPackages - 1 else s.numPackages,
      dropCommanded)
  }

  /** A run's trace: frame k carries the telemetry of state k, and state
      k + 1 is what tick k makes of state k. */
  ghost predicate Traced(env: Environment, objects: seq<Circle>, loopCount: nat, headings: seq<Vec>,
                         speedSteps: seq<real>, replies: seq<seq<byte>>, frames: seq<seq<byte>>, states: seq<TickState>)
    requires ValidEnvironment(env)
  {
    && |states| == |frames| + 1
    && StatesFollow(env, headings, speedSteps, replies, states)
    && forall k :: 0 <= k < |frames| ==>
         DecodeTelemetry(frames[k]) == Some(TickTelemetry(env, loopCount + k, states[k].position,
                                                         headings[k].Scale(states[k].windSpeed), objects))
  }

  /** Each recorded state is what the tick's inputs make of the one before. */
  ghost predicate StatesFollow(env: Environment, headings: seq<Vec>, speedSteps: seq<real>, replies: seq<seq<byte>>,
                               states: seq<TickState>)
  {
    && 0 < |states|
    && |states| - 1 <= |headings| && |states| - 1 <= |speedSteps| && |states| - 1 <= |replies|
    && forall k :: 0 <= k < |states| - 1 ==> states[k + 1] == NextState(env, states[k], headings[k], speedSteps[k], replies[k])
  }

  lemma TracedAppend(env: Environment, objects: seq<Circle>, loopCount: nat, headings: seq<Vec>,
                     speedSteps: seq<real>, replies: seq<seq<byte>>, frames: seq<seq<byte>>, states: seq<TickState>,
                     frame: seq<byte>, next: TickState)
    requires ValidEnvironment(env)
    requires Traced(env, objects, loopCount, headings, speedSteps, replies, frames, states)
    requires |frames| < |headings| && |frames| < |speedSteps| && |frames| < |replies|
    requires var k := |frames|;
      && DecodeTelemetry(frame) == Some(TickTelemetry(env, loopCount + k, states[k].position,
                                                      headings[k].Scale(states[k].windSpeed), objects))
      && next == NextState(env, states[k], headings[k], speedSteps[k], replies[k])
    ensures Traced(env, objects, loopCount, headings, speedSteps, replies, frames + [frame], states + [next])
  {}

  /** The drop flag a reply contributes: none for a reply that is not a
      command. */
  ghost function ReplyDrop(env: Environment, reply: seq<byte>): seq<bool> {
    if |reply| == COMMAND_SIZE then [Interpret(DecodeCommand(reply).value, env.f32Decode).dropCommanded] else []
  }

  /** What one tick does to the packages on board and to the debounce flag,
      in terms of the drop flags its reply contributes. */
  lemma NextStateReleases(env: Environment, s: TickState, heading: Vec, speedStep: real, reply: seq<byte>)
    ensures NextState(env, s, heading, speedStep, reply).numPackages
         == s.numPackages - Releases(ReplyDrop(env, reply), s.wasPackageDropped, s.numPackages)
    ensures NextState(env, s, heading, speedStep, reply).wasPackageDropped == LastOr(ReplyDrop(env, reply), s.wasPackageDropped)
  {
    if |reply| == COMMAND_SIZE {
      var drop := Interpret(DecodeCommand(reply).value, env.f32Decode).dropCommanded;
      assert ReplyDrop(env, reply) == [drop];
      assert [drop][1..] == [];
    }
  }

  /** The drop flags of the replies that were read as commands, in order. */
  ghost function CommandedDrops(env: Environment, replies: seq<seq<byte>>): seq<bool> {
    Flatten(seq(|replies|, k requires 0 <= k < |replies| => ReplyDrop(env, replies[k])))
  }

  ghost function Flatten(steps: seq<seq<bool>>): seq<bool>
    decreases |steps|
  {
    if steps == [] then [] else Flatten(steps[..|steps| - 1]) + steps[|steps| - 1]
  }

  /** The debounce flag after a run of drop commands. */
  function LastOr(drops: seq<bool>, wasPackageDropped: bool): bool {
    if drops == [] then wasPackageDropped else drops[|drops| - 1]
  }

  /** Releases over two runs of drop commands in a row: the second run
      starts from the debounce flag and the packages the first left. */
  lemma {:induction false} ReleasesConcat(drops: seq<bool>, more: seq<bool>, wasPackageDropped: bool, onBoard: nat)
    ensures Releases(drops + more, wasPackageDropped, onBoard)
         == Releases(drops, wasPackageDropped, onBoard)
          + Releases(more, LastOr(drops, wasPackageDropped), onBoard - Releases(drops, wasPackageDropped, onBoard))
    ensures LastOr(drops + more, wasPackageDropped) == LastOr(more, LastOr(drops, wasPackageDropped))
    decreases |drops|
  {
    if drops == [] {
      assert drops + more == more;
    } else {
      var rest := drops[1..];
      var left := if Released(drops[0], wasPackageDropped, onBoard) then onBoard - 1 else onBoard;
      assert (drops + more)[0] == drops[0] && (drops + more)[1..] == rest + more;
      assert LastOr(drops, wasPackageDropped) == LastOr(rest, drops[0]);
      ReleasesConcat(rest, more, drops[0], left);
    }
  }

  /** Packages on board and debounce flags that follow, tick by tick, from
      the drop flags of each tick. */
  ghost predicate ReleasesFollow(steps: seq<seq<bool>>, counts: seq<nat>, flags: seq<bool>) {
    && |counts| == |steps| + 1 && |flags| == |steps| + 1
    && forall k :: 0 <= k < |steps| ==>
      && counts[k + 1] == counts[k] - Releases(steps[k], flags[k], counts[k])
      && flags[k + 1] == LastOr(steps[k], flags[k])
  }

  lemma {:induction false} ReleasesAlong(steps: seq<seq<bool>>, counts: seq<nat>, flags: seq<bool>, n: nat)
    requires ReleasesFollow(steps, counts, flags)
    requires n <= |steps|
    ensures counts[n] == counts[0] - Releases(Flatten(steps[..n]), flags[0], counts[0])
    ensures flags[n] == LastOr(Flatten(steps[..n]), flags[0])
  {
    if n == 0 {
      assert steps[..0] == [];
    } else {
      ReleasesAlong(steps, counts, flags, n - 1);
      assert steps[..n][..n - 1] == steps[..n - 1];
      ReleasesConcat(Flatten(steps[..n - 1]), steps[n - 1], flags[0], counts[0]);
    }
  }

  /** Over a run that follows the tick function, the packages left and the
      debounce flag are those that Releases gives for the drop commands
      actually read: so a package is released on each rising edge of the
      command until none are left (ReleasesAreRisingEdges). */
  lemma TracedReleases(env: Environment, headings: seq<Vec>, speedSteps: seq<real>, replies: seq<seq<byte>>,
                       states: seq<TickState>, n: nat)
    requires StatesFollow(env, headings, speedSteps, replies, states)
    requires n < |states|
    ensures states[n].numPackages
         == states[0].numPackages - Releases(CommandedDrops(env, replies[..n]), states[0].wasPackageDropped, states[0].numPackages)
    ensures states[n].wasPackageDropped == LastOr(CommandedDrops(env, replies[..n]), states[0].wasPackageDropped)
  {
    var m := |states| - 1;
    var steps := seq(m, k requires 0 <= k < m => ReplyDrop(env, replies[k]));
    var counts := seq(m + 1, k requires 0 <= k <= m => states[k].numPackages);
    var flags := seq(m + 1, k requires 0 <= k <= m => states[k].wasPackageDropped);
    forall k | 0 <= k < m
      ensures counts[k + 1] == counts[k] - Releases(steps[k], flags[k], counts[k])
      ensures flags[k + 1] == LastOr(steps[k], flags[k])
    {
      NextStateReleases(env, states[k], headings[k], speedSteps[k], replies[k]);
    }
    ReleasesAlong(steps, counts, flags, n);
    assert steps[..n] == seq(n, k requires 0 <= k < n => ReplyDrop(env, replies[..n][k]));
  }

  function FallsOf(packages: seq<Package>): (falls: seq<Fall>)
    reads packages
    ensures |falls| == |packages|
    ensures forall k :: 0 <= k < |packages| ==> falls[k] == packages[k].State()
  {
    seq(|packages|, k requires 0 <= k < |packages| reads packages => packages[k].State())
  }

  /** Every package's fall advanced by dt. */
  function FallSteps(falls: seq<Fall>, dt: real): (next: seq<Fall>)
    ensures |next| == |falls|
    ensures forall k :: 0 <= k < |falls| ==> next[k] == FallStep(falls[k], dt)
  {
    seq(|falls|, k requires 0 <= k < |falls| => FallStep(falls[k], dt))
  }

  function PositionsOf(packages: seq<Package>): (positions: seq<Vec>)
    reads packages
    ensures |positions| == |packages|
  {
    seq(|packages|, k requires 0 <= k < |packages| reads packages => packages[k].position)
  }

  // ---------------------------------------------------------------------------
  // The simulation state (zip_sim.py:376-389)

  class SimulationState {
    const env: Environment
    const trees: seq<Vec>
    const sites: seq<Vec>
    const wind: Wind
    var loopCount: nat
    var position: Vec
    var lateralAirspeed: real
    var wasPackageDropped: bool
    var numPackages: nat
    var droppedPackages: seq<Package>
    var result: Option<Outcome>

    ghost predicate Valid()
      reads this`position, this`lateralAirspeed, this`numPackages, this`droppedPackages, wind, droppedPackages
    {
      && ValidEnvironment(env)
      && wind.Valid()
      && VehicleValid()
      && CargoValid()
    }

    ghost predicate VehicleValid()
      reads this`position, this`lateralAirspeed
    {
      && InWorld(position)
      && -MAX_LATERAL_AIRSPEED <= lateralAirspeed <= MAX_LATERAL_AIRSPEED
    }

    /** Every site's package is on board or released; the released ones are
        distinct, each consistent with its fall. */
    ghost predicate CargoValid()
      reads this`numPackages, this`droppedPackages, droppedPackages
    {
      && numPackages + |droppedPackages| == |sites|
      && (forall i, j :: 0 <= i < j < |droppedPackages| ==> droppedPackages[i] != droppedPackages[j])
      && (forall p :: p in droppedPackages ==> p.Valid() && p.initialFall == PACKAGE_FALL_SEC)
    }

    /** The part of the state a run's trace records. */
    function State(): TickState
      reads this`position, this`numPackages, this`wasPackageDropped, wind
    {
      TickState(position, wind.speed, numPackages, wasPackageDropped)
    }

    /** The packages' side of the state, as a value. */
    function Cargo(): CargoState
      reads this`numPackages, this`wasPackageDropped, this`droppedPackages, droppedPackages
    {
      CargoState(numPackages, wasPackageDropped, droppedPackages, FallsOf(droppedPackages))
    }

    /** The state before the first tick: the vehicle at the origin with every
        site's package on board, flying straight. */
    constructor (env: Environment, trees: seq<Vec>, sites: seq<Vec>, initialWindSpeed: real)
      requires ValidEnvironment(env)
      requires 0.0 <= initialWindSpeed <= MAX_WINDSPEED_M_S
      ensures Valid() && fresh(wind)
      ensures this.env == env && this.trees == trees && this.sites == sites
      ensures wind.speed == initialWindSpeed
      ensures loopCount == 0 && position == Vec(0.0, 0.0) && lateralAirspeed == 0.0
      ensures !wasPackageDropped && numPackages == |sites| && droppedPackages == [] && result == None
    {
      this.env := env;
      this.trees := trees;
      this.sites := sites;
      wind := new Wind(initialWindSpeed);
      loopCount := 0;
      position := Vec(0.0, 0.0);
      lateralAirspeed := 0.0;
      wasPackageDropped := false;
      numPackages := |sites|;
      droppedPackages := [];
      result := None;
    }

    /** Update every dropped package by dt, in order. */
    method AdvancePackages(dt: real)
      requires Valid() && dt >= 0.0
      modifies droppedPackages
      ensures Valid()
      ensures forall p :: p in droppedPackages ==> p.Advanced(dt)
      ensures FallsOf(droppedPackages) == FallSteps(old(FallsOf(droppedPackages)), dt)
    {
      for i := 0 to |droppedPackages|
        invariant forall p :: p in droppedPackages ==> p.Valid()
        invariant forall k :: 0 <= k < i ==> droppedPackages[k].Advanced(dt)
        invariant forall k :: i <= k < |droppedPackages| ==> unchanged(droppedPackages[k])
      {
        droppedPackages[i].Update(dt);
      }
      assert forall k :: 0 <= k < |droppedPackages| ==>
        FallsOf(droppedPackages)[k] == FallStep(old(droppedPackages[k].State()), dt);
    }

    /** Cast the lidar and pack the telemetry frame for the current state. */
    method SendTelemetry(windVector: Vec) returns (frame: seq<byte>)
      requires Valid()
      ensures DecodeTelemetry(frame) == Some(TickTelemetry(env, loopCount, position, windVector, LidarObjects(trees, sites)))
    {
      var objects := LidarObjects(trees, sites);
      var samples := CastLidar(position, objects, env.rays, env.sqrt);
      assert samples == Scan(env, position, objects);
      ghost var telemetry := TickTelemetry(env, loopCount, position, windVector, objects);
      TickTelemetryPackable(env, loopCount, position, windVector, objects);
      frame := EncodeTelemetry(MakeTelemetry(loopCount, position, env.f32Encode(windVector.x), env.f32Encode(windVector.y), samples));
      TelemetryRoundTrip(telemetry);
    }

    /** The packages' part of one tick once a command has been read, from
        the cargo before it: every package already released advances DT_SEC
        and keeps its place; on a rising edge of the drop command while any
        are on board, one package is released at releasePosition with
        releaseVelocity and appended; the debounce flag takes the command. */
    ghost predicate CargoStepped(before: CargoState, dropCommanded: bool, releasePosition: Vec, releaseVelocity: Vec)
      reads this`numPackages, this`wasPackageDropped, this`droppedPackages, droppedPackages
    {
      && wasPackageDropped == dropCommanded
      && |before.packages| <= |droppedPackages|
      && droppedPackages[..|before.packages|] == before.packages
      && FallsOf(droppedPackages[..|before.packages|]) == FallSteps(before.falls, DT_SEC)
      && if Released(dropCommanded, before.wasPackageDropped, before.numPackages) then
           && numPackages == before.numPackages - 1
           && |droppedPackages| == |before.packages| + 1
           && droppedPackages[|before.packages|].State() == Fall(releasePosition, releaseVelocity, PACKAGE_FALL_SEC)
         else
           && numPackages == before.numPackages
           && droppedPackages == before.packages
    }

    /** The effect of one tick's physics once a command has been read, from
        the cargo before it and with the given wind vector: the airspeed is
        clamped, the packages step (CargoStepped) with the new package
        released at the vehicle's new position with its velocity, and the
        result is the recovery outcome past the line, else a crash into a
        tree, else none. */
    ghost predicate Stepped(before: CargoState, lateralAirspeedInput: real, dropCommanded: bool, windVector: Vec)
      reads this`lateralAirspeed, this`position, this`result
      reads this`numPackages, this`wasPackageDropped, this`droppedPackages, droppedPackages
    {
      && lateralAirspeed == Clamp(lateralAirspeedInput, -MAX_LATERAL_AIRSPEED, MAX_LATERAL_AIRSPEED)
      && CargoStepped(before, dropCommanded, position, Velocity(lateralAirspeed, windVector))
      && result == (if position.x >= RECOVERY_X then Some(RecoveryOutcome(position))
                    else if HitsTree(trees, position) then Some(Crashed)
                    else None)
    }

    /** One pass of the main loop. The wind vector is the wind's speed times
        the supplied heading (any vector: nothing here needs it to be a unit
        one); speedStep is the wind's random step; reply is what was read
        back from the pilot. The frame sent is the one the pilot decodes into
        this tick's telemetry, hence (TelemetryFrameRoundTrip) exactly its
        packing. */
    method Tick(heading: Vec, speedStep: real, reply: seq<byte>) returns (frame: seq<byte>)
      requires Valid() && result.None?
      modifies this, wind, droppedPackages
      ensures Valid()
      ensures DecodeTelemetry(frame) == Some(TickTelemetry(env, old(loopCount), old(position),
                                                           heading.Scale(old(wind.speed)), LidarObjects(trees, sites)))
      ensures loopCount == old(loopCount) + 1
      ensures |old(droppedPackages)| <= |droppedPackages| && droppedPackages[..|old(droppedPackages)|] == old(droppedPackages)
      ensures forall p :: p in droppedPackages && p !in old(droppedPackages) ==> fresh(p)
      ensures State() == NextState(env, old(State()), heading, speedStep, reply)
      // A short read means the pilot has gone: crash, with nothing else moving.
      ensures |reply| != COMMAND_SIZE ==>
        && result == Some(Crashed)
        && lateralAirspeed == old(lateralAirspeed)
        && droppedPackages == old(droppedPackages)
        && forall p :: p in droppedPackages ==> unchanged(p)
      ensures |reply| == COMMAND_SIZE ==>
        var cmd := Interpret(DecodeCommand(reply).value, env.f32Decode);
        Stepped(old(Cargo()), cmd.lateralAirspeed, cmd.dropCommanded, heading.Scale(old(wind.speed)))
    {
      var windVector := heading.Scale(wind.speed);
      frame := SendTelemetry(windVector);
      ghost var before, cargo := State(), Cargo();
      loopCount := loopCount + 1;
      assert State() == before && Cargo() == cargo;
      var command := DecodeCommand(reply);
      if command.None? {
        result := Some(Crashed);
        return;
      }
      var cmd := Interpret(command.value, env.f32Decode);
      Step(cmd.lateralAirspeed, cmd.dropCommanded, heading, speedStep);
      assert State() == StepState(before, cmd.lateralAirspeed, cmd.dropCommanded, heading, speedStep);
    }

    /** The physics of one tick, once a command has been read. */
    method Step(lateralAirspeedInput: real, dropCommanded: bool, heading: Vec, speedStep: real)
      requires Valid() && result.None?
      modifies this, wind, droppedPackages
      ensures Valid()
      ensures loopCount == old(loopCount)
      ensures forall p :: p in droppedPackages && p !in old(droppedPackages) ==> fresh(p)
      ensures position == VehicleStep(old(position), DT_SEC, lateralAirspeed, heading.Scale(old(wind.speed)))
      ensures wind.speed == Clamp(old(wind.speed) + speedStep, 0.0, MAX_WINDSPEED_M_S)
      ensures Stepped(old(Cargo()), lateralAirspeedInput, dropCommanded, heading.Scale(old(wind.speed)))
    {
      var windVector := heading.Scale(wind.speed);
      Move(lateralAirspeedInput, dropCommanded, windVector);
      wind.Update(speedStep);
      Recover();
    }

    /** Past the recovery line the flight is over, whatever else happened. */
    method Recover()
      modifies this`result
      ensures result == if position.x >= RECOVERY_X then Some(RecoveryOutcome(position)) else old(result)
    {
      if position.x >= RECOVERY_X {
        result := Some(RecoveryOutcome(position));
      }
    }

    /** The vehicle's and the packages' part of a tick: fly, then update
        the packages. */
    method Move(lateralAirspeedInput: real, dropCommanded: bool, windVector: Vec)
      requires Valid() && result.None?
      modifies this`position, this`lateralAirspeed, this`result
      modifies this`numPackages, this`wasPackageDropped, this`droppedPackages, droppedPackages
      ensures Valid()
      ensures forall p :: p in droppedPackages && p !in old(droppedPackages) ==> fresh(p)
      ensures lateralAirspeed == Clamp(lateralAirspeedInput, -MAX_LATERAL_AIRSPEED, MAX_LATERAL_AIRSPEED)
      ensures position == VehicleStep(old(position), DT_SEC, lateralAirspeed, windVector)
      ensures result == if HitsTree(trees, position) then Some(Crashed) else None
      ensures CargoStepped(old(Cargo()), dropCommanded, position, Velocity(lateralAirspeed, windVector))
    {
      Fly(lateralAirspeedInput, windVector);
      assert Cargo() == old(Cargo());
      UpdatePackages(dropCommanded, windVector);
    }

    /** Clamp the commanded lateral airspeed, move the vehicle one step and
        test it against every tree. */
    method Fly(lateralAirspeedInput: real, windVector: Vec)
      requires Valid() && result.None?
      modifies this`position, this`lateralAirspeed, this`result
      ensures Valid()
      ensures lateralAirspeed == Clamp(lateralAirspeedInput, -MAX_LATERAL_AIRSPEED, MAX_LATERAL_AIRSPEED)
      ensures position == VehicleStep(old(position), DT_SEC, lateralAirspeed, windVector)
      ensures result == if HitsTree(trees, position) then Some(Crashed) else None
      ensures loopCount == old(loopCount) && wasPackageDropped == old(wasPackageDropped)
      ensures numPackages == old(numPackages) && droppedPackages == old(droppedPackages)
    {
      lateralAirspeed := Clamp(lateralAirspeedInput, -MAX_LATERAL_AIRSPEED, MAX_LATERAL_AIRSPEED);
      position := VehicleStep(position, DT_SEC, lateralAirspeed, windVector);
      var crashed := CollidesWithTree(trees, position);
      if crashed {
        result := Some(Crashed);
      }
    }

    /** Advance the falling packages, then release one more on the rising edge
        of the drop command, at the vehicle's position and with its velocity. */
    method UpdatePackages(dropCommanded: bool, windVector: Vec)
      requires Valid()
      modifies this`numPackages, this`wasPackageDropped, this`droppedPackages, droppedPackages
      ensures Valid()
      ensures forall p :: p in droppedPackages && p !in old(droppedPackages) ==> fresh(p)
      ensures CargoStepped(old(Cargo()), dropCommanded, position, Velocity(lateralAirspeed, windVector))
      ensures position == old(position) && lateralAirspeed == old(lateralAirspeed)
      ensures result == old(result) && loopCount == old(loopCount)
    {
      AdvancePackages(DT_SEC);
      ghost var advanced := droppedPackages;
      Release(dropCommanded, Velocity(lateralAirspeed, windVector));
      assert droppedPackages[..|advanced|] == advanced;
    }

    /** On a rising edge of the drop command while any are on board, release
        one package at the vehicle's position with the given velocity; the
        debounce flag takes the command. */
    method Release(dropCommanded: bool, releaseVelocity: Vec)
      requires Valid()
      modifies this`numPackages, this`wasPackageDropped, this`droppedPackages
      ensures Valid()
      ensures wasPackageDropped == dropCommanded
      ensures if Released(dropCommanded, old(wasPackageDropped), old(numPackages)) then
                && numPackages == old(numPackages) - 1
                && |droppedPackages| == |old(droppedPackages)| + 1
                && droppedPackages[..|old(droppedPackages)|] == old(droppedPackages)
                && fresh(droppedPackages[|old(droppedPackages)|])
                && droppedPackages[|old(droppedPackages)|].State() == Fall(position, releaseVelocity, PACKAGE_FALL_SEC)
              else
                && numPackages == old(numPackages)
                && droppedPackages == old(droppedPackages)
    {
      if Released(dropCommanded, wasPackageDropped, numPackages) {
        numPackages := numPackages - 1;
        var p := new Package(position, releaseVelocity);
        NormalizeInWorld(position);
        droppedPackages := droppedPackages + [p];
      }
      wasPackageDropped := dropCommanded;
    }

    /** The main loop: tick until a result is set or the inputs run out. The
        ghost outputs record the state before each tick (and after the last)
        and the result after each tick. */
    method Run(headings: seq<Vec>, speedSteps: seq<real>, replies: seq<seq<byte>>)
      returns (frames: seq<seq<byte>>, ghost states: seq<TickState>, ghost results: seq<Option<Outcome>>)
      requires Valid() && result.None?
      requires |headings| == |speedSteps| == |replies|
      modifies this, wind, droppedPackages
      ensures Valid()
      ensures |frames| <= |replies|
      ensures loopCount == old(loopCount) + |frames|
      ensures forall k :: 0 <= k < |frames| ==> |frames[k]| == TELEMETRY_SIZE
      // Ticks run while no result is set, and only the last tick may set one.
      ensures |frames| < |replies| ==> result.Some?
      ensures result.Some? ==> 0 < |frames|
      ensures |results| == |frames|
      ensures forall k :: 0 <= k < |frames| - 1 ==> results[k].None?
      ensures 0 < |frames| ==> results[|frames| - 1] == result
      // Each frame carries the telemetry of the state before its tick, and
      // each tick's state follows from the one before.
      ensures Traced(env, LidarObjects(trees, sites), old(loopCount), headings, speedSteps, replies, frames, states)
      ensures states[0] == old(State()) && states[|frames|] == State()
      // The packages released so far stay in order at the front of the list.
      ensures |old(droppedPackages)| <= |droppedPackages|
      ensures droppedPackages[..|old(droppedPackages)|] == old(droppedPackages)
    {
      frames := [];
      states := [State()];
      results := [];
      var i := 0;
      while i < |replies| && result.None?
        invariant Valid()
        invariant 0 <= i <= |replies| && |frames| == i && |results| == i
        invariant loopCount == old(loopCount) + i
        invariant forall k :: 0 <= k < i ==> |frames[k]| == TELEMETRY_SIZE
        invariant i == 0 ==> result.None?
        invariant forall k :: 0 <= k < i - 1 ==> results[k].None?
        invariant 0 < i ==> results[i - 1] == result
        invariant Traced(env, LidarObjects(trees, sites), old(loopCount), headings, speedSteps, replies, frames, states)
        invariant states[0] == old(State()) && states[i] == State()
        invariant |old(droppedPackages)| <= |droppedPackages|
        invariant droppedPackages[..|old(droppedPackages)|] == old(droppedPackages)
        invariant fresh((set p | p in droppedPackages) - (set p | p in old(droppedPackages)))
      {
        var frame := TracedTick(old(loopCount), headings, speedSteps, replies, frames, states);
        frames := frames + [frame];
        states := states + [State()];
        results := results + [result];
        i := i + 1;
      }
    }

    /** One iteration of Run: a tick on the next inputs, its frame and new
        state appended to the trace. */
    method TracedTick(ghost start: nat, headings: seq<Vec>, speedSteps: seq<real>, replies: seq<seq<byte>>,
                      frames: seq<seq<byte>>, ghost states: seq<TickState>) returns (frame: seq<byte>)
      requires Valid() && result.None?
      requires |frames| < |headings| && |frames| < |speedSteps| && |frames| < |replies|
      requires Traced(env, LidarObjects(trees, sites), start, headings, speedSteps, replies, frames, states)
      requires states[|frames|] == State() && loopCount == start + |frames|
      modifies this, wind, droppedPackages
      ensures Valid()
      ensures loopCount == old(loopCount) + 1
      ensures |frame| == TELEMETRY_SIZE
      ensures Traced(env, LidarObjects(trees, sites), start, headings, speedSteps, replies, frames + [frame], states + [State()])
      ensures |old(droppedPackages)| <= |droppedPackages| && droppedPackages[..|old(droppedPackages)|] == old(droppedPackages)
      ensures fresh((set p | p in droppedPackages) - (set p | p in old(droppedPackages)))
    {
      var k := |frames|;
      frame := Tick(headings[k], speedSteps[k], replies[k]);
      TracedAppend(env, LidarObjects(trees, sites), start, headings, speedSteps, replies, frames, states, frame, State());
    }

    /** The end-of-run count: settle every package, then count, per site, the
        packages resting inside it. Returns the deliveries and the
        violations. */
    method Score() returns (deliveries: nat, violations: nat)
      requires Valid()
      modifies droppedPackages
      ensures Valid()
      ensures forall p :: p in droppedPackages ==> p.fallDuration == 0.0 && p.position == p.LandingPoint()
      ensures deliveries == |SiteCounts(SiteCircles(sites), PositionsOf(droppedPackages))|
      ensures violations == Violations(SiteCircles(sites), PositionsOf(droppedPackages))
      ensures deliveries <= |sites|
      ensures violations + deliveries == Matches(SiteCircles(sites), PositionsOf(droppedPackages), |sites|)
      ensures violations == 0 <==>
        forall i :: 0 <= i < |sites| ==> CountIn(SiteCircle(sites[i]), PositionsOf(droppedPackages)) <= 1
    {
      AdvancePackages(PACKAGE_FALL_SEC);
      var circles := SiteCircles(sites);
      var positions := PositionsOf(droppedPackages);
      var counts := CountPackagesBySite(positions, circles);
      deliveries := |counts|;
      violations := Excess(counts, |circles|);
      Deliveries(circles, positions);
      ViolationsIdentity(circles, positions);
      NoViolationsIff(circles, positions);
    }
  }
}

=== FILE: worldgen.dfy ===
/** World generation: delivery sites are drawn until ten are placed, each at
    least MIN_DELIVERY_DISTANCE from the ones before; trees are drawn until
    the chosen number are placed, each at least MIN_TREE_DISTANCE from every
    site. The random draws are inputs: a sequence of raw (x, y) draws,
    consumed in order. */
module WorldGeneration {
  import opened Numbers
  import opened Geometry
  import opened Entities

  const DELIVERY_SITE_X_MIN: real := 100.0
  const DELIVERY_SITE_X_MAX: real := WORLD_LENGTH - 100.0
  const DELIVERY_SITE_Y_MIN: real := -WORLD_WIDTH_HALF + 5.0
  const DELIVERY_SITE_Y_MAX: real := WORLD_WIDTH_HALF - 5.0
  const MIN_DELIVERY_DISTANCE: real := 100.0
  const TREE_X_MIN: real := 50.0
  const TREE_X_MAX: real := WORLD_LENGTH - 50.0
  const MIN_TREE_DISTANCE: real := 10.0

  /** round(x, 1): the nearest tenth. */
  function RoundTenth(x: real): (r: real)
    ensures x - 0.05 <= r <= x + 0.05
  {
    Round(x * 10.0) as real / 10.0
  }

  /** Rounding to a tenth never leaves an interval with whole-number ends. */
  lemma RoundTenthWithin(x: real, lo: int, hi: int)
    requires lo as real <= x <= hi as real
    ensures lo as real <= RoundTenth(x) <= hi as real
  {
    RoundWithin(x * 10.0, lo * 10, hi * 10);
  }

  /** Where a site draw is put: wrapped into the world, then rounded, which
      can land exactly on the far edge. */
  function SiteCandidate(draw: Vec): (c: Vec)
    ensures 0.0 <= c.x <= WORLD_LENGTH && 0.0 <= c.y <= WORLD_WIDTH
  {
    var x := Wrap(draw.x, WORLD_LENGTH);
    var y := Wrap(draw.y, WORLD_WIDTH);
    RoundTenthWithin(x, 0, 2000);
    RoundTenthWithin(y, 0, 50);
    Vec(RoundTenth(x), RoundTenth(y))
  }

  /** Where a tree draw is put: rounded only. */
  function TreeCandidate(draw: Vec): Vec {
    Vec(RoundTenth(draw.x), RoundTenth(draw.y))
  }

  /** A tree draw inside TREE_X_BOUNDS x [0, WORLD_WIDTH] stays inside once
      rounded, so it lies in the world or on its far edge. */
  lemma TreeCandidateInRange(draw: Vec)
    requires TREE_X_MIN <= draw.x <= TREE_X_MAX && 0.0 <= draw.y <= WORLD_WIDTH
    ensures var c := TreeCandidate(draw);
      TREE_X_MIN <= c.x <= TREE_X_MAX && 0.0 <= c.y <= WORLD_WIDTH
  {
    RoundTenthWithin(draw.x, 50, 1950);
    RoundTenthWithin(draw.y, 0, 50);
  }

  /** min(distance from each placed site, default=minDistance) >= minDistance:
      the candidate is at least minDistance from the normalised position of
      every site placed so far (compared squared). */
  predicate FarFromAll(sites: seq<Vec>, candidate: Vec, minDistance: real) {
    forall k :: 0 <= k < |sites| ==> DistanceSquared(Normalize(sites[k]), candidate) >= minDistance * minDistance
  }

  // ---------------------------------------------------------------------------
  // Delivery sites (zip_sim.py:345-355)

  /** The sites placed by the remaining draws, given those already placed. */
  function PlaceSites(draws: seq<Vec>, placed: seq<Vec>): seq<Vec>
    decreases |draws|
  {
    if |placed| >= NUM_DELIVERY_SITES || draws == [] then placed
    else
      var c := SiteCandidate(draws[0]);
      PlaceSites(draws[1..], if FarFromAll(placed, c, MIN_DELIVERY_DISTANCE) then placed + [c] else placed)
  }

  /** Each site was accepted against all the sites before it. */
  ghost predicate SitesSeparated(sites: seq<Vec>) {
    forall j :: 0 <= j < |sites| ==> FarFromAll(sites[..j], sites[j], MIN_DELIVERY_DISTANCE)
  }

  ghost predicate OnWorldEdgeOrInside(p: Vec) {
    0.0 <= p.x <= WORLD_LENGTH && 0.0 <= p.y <= WORLD_WIDTH
  }

  lemma {:induction false} PlaceSitesProperties(draws: seq<Vec>, placed: seq<Vec>)
    requires SitesSeparated(placed)
    requires forall k :: 0 <= k < |placed| ==> OnWorldEdgeOrInside(placed[k])
    ensures var sites := PlaceSites(draws, placed);
      && SitesSeparated(sites)
      && |placed| <= |sites|
      && sites[..|placed|] == placed
      && (|placed| <= NUM_DELIVERY_SITES ==> |sites| <= NUM_DELIVERY_SITES)
      && forall k :: 0 <= k < |sites| ==> OnWorldEdgeOrInside(sites[k])
    decreases |draws|
  {
    if |placed| >= NUM_DELIVERY_SITES || draws == [] {
      assert placed[..|placed|] == placed;
    } else {
      var c := SiteCandidate(draws[0]);
      if FarFromAll(placed, c, MIN_DELIVERY_DISTANCE) {
        var next := placed + [c];
        assert next[..|placed|] == placed;
        assert SitesSeparated(next) by {
          forall j | 0 <= j < |next|
            ensures FarFromAll(next[..j], next[j], MIN_DELIVERY_DISTANCE)
          {
            if j < |placed| {
              assert next[..j] == placed[..j];
            }
          }
        }
        PlaceSitesProperties(draws[1..], next);
        var sites := PlaceSites(draws[1..], next);
        assert sites[..|placed|] == sites[..|next|][..|placed|];
      } else {
        PlaceSitesProperties(draws[1..], placed);
      }
    }
  }

  /** A raw position on the world's far edge is the same point as its
      normalised one, as far as wrapped distances go. */
  lemma DistanceToEdgePoint(a: Vec, c: Vec)
    requires InWorld(a) && OnWorldEdgeOrInside(c)
    ensures DistanceSquared(a, c) == DistanceSquared(a, Normalize(c))
  {
    if c.x == WORLD_LENGTH {
      WrapUnique(c.x, WORLD_LENGTH, 0.0, 1);
    } else {
      WrapInRange(c.x, WORLD_LENGTH);
    }
    if c.y == WORLD_WIDTH {
      WrapUnique(c.y, WORLD_WIDTH, 0.0, 1);
    } else {
      WrapInRange(c.y, WORLD_WIDTH);
    }
  }

  /** Every two generated sites are at least MIN_DELIVERY_DISTANCE apart,
      measured between the circles the simulation builds from them. */
  lemma {:induction false} SitesPairwiseApart(draws: seq<Vec>)
    ensures var sites := PlaceSites(draws, []);
      && |sites| <= NUM_DELIVERY_SITES
      && forall i, j :: 0 <= i < |sites| && 0 <= j < |sites| && i != j ==>
           DistanceSquared(SiteCircle(sites[i]).center, SiteCircle(sites[j]).center)
             >= MIN_DELIVERY_DISTANCE * MIN_DELIVERY_DISTANCE
  {
    PlaceSitesProperties(draws, []);
    var sites := PlaceSites(draws, []);
    forall i, j | 0 <= i < |sites| && 0 <= j < |sites| && i != j
      ensures DistanceSquared(SiteCircle(sites[i]).center, SiteCircle(sites[j]).center)
                >= MIN_DELIVERY_DISTANCE * MIN_DELIVERY_DISTANCE
    {
      var lo := if i < j then i else j;
      var hi := if i < j then j else i;
      assert FarFromAll(sites[..hi], sites[hi], MIN_DELIVERY_DISTANCE);
      assert sites[..hi][lo] == sites[lo];
      DistanceToEdgePoint(Normalize(sites[lo]), sites[hi]);
      DistanceSquaredSymmetric(Normalize(sites[lo]), Normalize(sites[hi]));
    }
  }

  /** The placement loop, flattened: each draw is tried once, in order,
      until ten sites are placed or the draws run out. */
  method GenerateSites(draws: seq<Vec>) returns (sites: seq<Vec>)
    ensures sites == PlaceSites(draws, [])
    ensures |sites| <= NUM_DELIVERY_SITES
  {
    sites := [];
    var i := 0;
    while |sites| < NUM_DELIVERY_SITES && i < |draws|
      invariant 0 <= i <= |draws|
      invariant PlaceSites(draws[i..], sites) == PlaceSites(draws, [])
    {
      var c := SiteCandidate(draws[i]);
      assert draws[i..][1..] == draws[i + 1..];
      if FarFromAll(sites, c, MIN_DELIVERY_DISTANCE) {
        sites := sites + [c];
      }
      i := i + 1;
    }
    PlaceSitesProperties(draws, []);
  }

  // ---------------------------------------------------------------------------
  // Trees (zip_sim.py:357-370)

  /** The number of trees: the Gaussian density capped at MAX_NUM_TREES when
      it is at least TYPICAL_NUM_TREES, otherwise a triangular draw in
      [0, TYPICAL_NUM_TREES]; rounded either way. */
  function NumTrees(density: real, triangular: real): (n: int)
    requires 0.0 <= triangular <= TYPICAL_NUM_TREES as real
    ensures 0 <= n <= MAX_NUM_TREES
    ensures density >= TYPICAL_NUM_TREES as real ==> TYPICAL_NUM_TREES <= n
    ensures density < TYPICAL_NUM_TREES as real ==> n <= TYPICAL_NUM_TREES
  {
    if density >= TYPICAL_NUM_TREES as real then
      RoundWithin(Min(MAX_NUM_TREES as real, density), TYPICAL_NUM_TREES, MAX_NUM_TREES);
      Round(Min(MAX_NUM_TREES as real, density))
    else
      RoundWithin(triangular, 0, TYPICAL_NUM_TREES);
      Round(triangular)
  }

  /** The trees placed by the remaining draws until count are placed. */
  function PlaceTrees(count: nat, sites: seq<Vec>, draws: seq<Vec>, placed: seq<Vec>): seq<Vec>
    decreases |draws|
  {
    if |placed| >= count || draws == [] then placed
    else
      var c := TreeCandidate(draws[0]);
      PlaceTrees(count, sites, draws[1..], if FarFromAll(sites, c, MIN_TREE_DISTANCE) then placed + [c] else placed)
  }

  lemma {:induction false} PlaceTreesProperties(count: nat, sites: seq<Vec>, draws: seq<Vec>, placed: seq<Vec>)
    requires forall t :: t in placed ==> FarFromAll(sites, t, MIN_TREE_DISTANCE)
    ensures var trees := PlaceTrees(count, sites, draws, placed);
      && (forall t :: t in trees ==> FarFromAll(sites, t, MIN_TREE_DISTANCE))
      && (|placed| <= count ==> |trees| <= count)
      && (|trees| < count ==> |trees| <= |placed| + |draws|)
    decreases |draws|
  {
    if |placed| >= count || draws == [] {
    } else {
      var c := TreeCandidate(draws[0]);
      if FarFromAll(sites, c, MIN_TREE_DISTANCE) {
        PlaceTreesProperties(count, sites, draws[1..], placed + [c]);
      } else {
        PlaceTreesProperties(count, sites, draws[1..], placed);
      }
    }
  }

  /** Every generated tree's collision circle is at least MIN_TREE_DISTANCE
      from every site's circle, for draws inside TREE_X_BOUNDS x [0, WORLD_WIDTH]. */
  lemma TreesClearOfSites(count: nat, sites: seq<Vec>, draws: seq<Vec>)
    requires forall d :: d in draws ==> TREE_X_MIN <= d.x <= TREE_X_MAX && 0.0 <= d.y <= WORLD_WIDTH
    ensures var trees := PlaceTrees(count, sites, draws, []);
      && |trees| <= count
      && forall t, k :: t in trees && 0 <= k < |sites| ==>
           DistanceSquared(SiteCircle(sites[k]).center, TreeCircle(t).center) >= MIN_TREE_DISTANCE * MIN_TREE_DISTANCE
  {
    PlaceTreesProperties(count, sites, draws, []);
    TreesFromDraws(count, sites, draws, []);
    var trees := PlaceTrees(count, sites, draws, []);
    forall t, k | t in trees && 0 <= k < |sites|
      ensures DistanceSquared(SiteCircle(sites[k]).center, TreeCircle(t).center) >= MIN_TREE_DISTANCE * MIN_TREE_DISTANCE
    {
      assert FarFromAll(sites, t, MIN_TREE_DISTANCE);
      DistanceToEdgePoint(Normalize(sites[k]), t);
    }
  }

  /** With in-range draws, every placed tree lies in the world or on its edge. */
  lemma {:induction false} TreesFromDraws(count: nat, sites: seq<Vec>, draws: seq<Vec>, placed: seq<Vec>)
    requires forall d :: d in draws ==> TREE_X_MIN <= d.x <= TREE_X_MAX && 0.0 <= d.y <= WORLD_WIDTH
    requires forall t :: t in placed ==> OnWorldEdgeOrInside(t)
    ensures forall t :: t in PlaceTrees(count, sites, draws, placed) ==> OnWorldEdgeOrInside(t)
    decreases |draws|
  {
    if |placed| >= count || draws == [] {
    } else {
      assert draws[0] in draws;
      assert forall d :: d in draws[1..] ==> d in draws;
      var c := TreeCandidate(draws[0]);
      TreeCandidateInRange(draws[0]);
      if FarFromAll(sites, c, MIN_TREE_DISTANCE) {
        TreesFromDraws(count, sites, draws[1..], placed + [c]);
      } else {
        TreesFromDraws(count, sites, draws[1..], placed);
      }
    }
  }

  /** The tree placement loop, flattened like the sites'. */
  method GenerateTrees(count: nat, sites: seq<Vec>, draws: seq<Vec>) returns (trees: seq<Vec>)
    ensures trees == PlaceTrees(count, sites, draws, [])
    ensures |trees| <= count
    ensures forall t :: t in trees ==> FarFromAll(sites, t, MIN_TREE_DISTANCE)
  {
    trees := [];
    var i := 0;
    while |trees| < count && i < |draws|
      invariant 0 <= i <= |draws|
      invariant PlaceTrees(count, sites, draws[i..], trees) == PlaceTrees(count, sites, draws, [])
    {
      var c := TreeCandidate(draws[i]);
      assert draws[i..][1..] == draws[i + 1..];
      if FarFromAll(sites, c, MIN_TREE_DISTANCE) {
        trees := trees + [c];
      }
      i := i + 1;
    }
    PlaceTreesProperties(count, sites, draws, []);
  }
}

=== FILE: wrappers.dfy ===
/** The optional value used for the source's `None`-able results. */
module Wrappers {
  datatype Option<T> = None | Some(value: T)
}
